=== FILE: README.md ===
# micro-journal-ai, modelled in Dafny

Micro Journal AI is a browser journaling app. The model covers its logic, not its views:

- **Entry store.** The store keeps the whole journal as the JSON text of one array under the `localStorage` key `journal_entries`.
  - Reads fail open to the empty journal.
  - Every write rewrites the array through a save that refuses more than 4.5 MiB, counted as two bytes per UTF-16 code unit of the text's `length`.
  - On top of it sit:
    - add, update, delete and clear;
    - export to a `{exportDate, version, entriesCount, entries}` snapshot;
    - an import that skips known ids and re-sorts newest first;
    - a quota monitor with 4 MiB and 4.5 MiB thresholds.
- **Journal screen.** The app keeps its own entry list and has a keyword mood classifier (difficult words win). The list logic covers saving, deleting with confirmation, and the ten-entry batch sent for insights.
- **History screen.** A case-insensitive substring search, plus the choice between the empty-journal, no-match and results panes.
- **Proxy server.** The `/api/insights` handler applies a per-IP sliding-window limit of ten requests per hour. After that come the body check (an `entries` array of at least three), the API-key check, the seven-entry numbered prompt and the upstream outcome.
- **API client.**
  - Input validation.
  - The mapping of each transport outcome and status to a result or an `APIError`.
  - The reply-shape check.
  - The retry loop, which waits 2^k seconds between attempts and never retries a 4xx.
  - The message shown for an error.
- **Storage-warning banner.** A state machine over the latest quota reading and the dismissed flag.

Each operation is a pure function from the old state to its result and the new state. The pieces outside the model are passed in as values:

- The clock is a `Prelude.Clock` (milliseconds and the ISO string).
- The JSON layer is a `EntryStore.Runtime`: the stringifier, the parser as seen through `Array.isArray`, and `new Date(e.timestamp)`. The predicate `Faithful` says parsing undoes stringifying.
- The browser's `localStorage` is a `LocalStorage.Storage`, a sequence of key/value pairs with a capacity and an availability flag.
- Each request the client makes is answered by a `world: nat -> Transport`. This is the infinite sequence of attempt outcomes that the retry loop folds over.

Behaviours of the code worth knowing:

- `addEntry` does not compute a mood. Only the journal screen classifies text.
- The retry loop treats the client's 408 timeout as a 4xx error, so a timeout is never retried.
- The client posts `{entry: <text>}`, but the server wants an `entries` array of at least three. Every client request is therefore answered 400 or 429 (`InsightsServer.ClientBodyRejected`).
- The server forwards the upstream body unchanged. The client accepts only a `{success, data: {mood, insights, reflection}}` shape.
- The journal screen keeps its list under a second key, `journalEntries`, apart from the entry store.
- An import does not deduplicate incoming entries against each other.

## Model

| member | source | states |
|---|---|---|
| Text.ToLower | src/components/HistoryView.jsx:7 | `toLowerCase` keeps the length, turns each capital into the small letter at the same place in the alphabet, and keeps every other character (ASCII only) |
| Text.ToLowerIdempotent | src/App.jsx:169 | lowering twice equals lowering once |
| Text.Contains | src/components/HistoryView.jsx:7 | `includes` is true iff the substring occurs at some index |
| Text.ContainsEmpty | src/components/HistoryView.jsx:7 | every string includes the empty string |
| Text.Trim | src/utils/apiUtils.js:72 | `trim` yields the substring left after removing only whitespace before and after it, and it neither starts nor ends with whitespace |
| Text.TrimIdempotent | src/utils/apiUtils.js:82 | trimming trimmed text changes nothing |
| Text.TrimEmptyIffBlank | src/App.jsx:106 | `trim()` is empty exactly when every character is whitespace |
| Text.DecimalString | src/utils/storageUtils.js:105 | `Date.now().toString()` is a non-empty digit string without a leading zero |
| Text.DecimalRoundTrip | src/utils/storageUtils.js:105 | reading the decimal id back gives the clock reading |
| Text.DecimalInjective | src/utils/storageUtils.js:105 | distinct clock readings give distinct ids |
| LocalStorage.Lookup | src/utils/storageUtils.js:60 | `getItem` is null iff no pair has the key, else it returns a stored value for it |
| LocalStorage.Units | src/utils/storageUtils.js:18 | a string's `length` counts a code point beyond U+FFFF as two units and any other as one |
| LocalStorage.EmojiIsSurrogatePair | src/utils/storageUtils.js:81 | an emoji such as U+1F600 has `length` 2 |
| LocalStorage.UnitsInPlane | src/utils/storageUtils.js:18 | for text within the Basic Multilingual Plane, `length` is the number of characters |
| LocalStorage.Put | src/utils/storageUtils.js:86 | writing a key keeps keys unique, makes the key read the new value, and leaves other keys alone |
| LocalStorage.PutChars | src/utils/storageUtils.js:86 | a write changes the code-unit count by the new value's length less the old one's |
| LocalStorage.Delete | src/utils/storageUtils.js:216 | removing a key makes it absent and leaves other keys alone |
| LocalStorage.SetItem | src/utils/storageUtils.js:86 | `setItem` fails with a security error when storage is inaccessible and with a quota error when the mapping outgrows capacity; a write that fits always succeeds, stores the value and changes no other key |
| LocalStorage.RemoveItem | src/utils/storageUtils.js:216 | `removeItem` fails iff storage is inaccessible, else the key is gone, others are kept, and the storage stays accessible with the same capacity |
| Quota.StorageSize | src/utils/storageUtils.js:14-22 | the storage size is twice the UTF-16 code units of all keys and values, so always even |
| Quota.CharsAppend | src/utils/storageUtils.js:16-19 | the size sums over the pairs and splits over concatenation |
| Quota.PairCounted | src/utils/storageUtils.js:18 | each stored pair's key and value count toward the size |
| Quota.SizeAfterSetItem | src/utils/storageUtils.js:14-22 | a successful write moves the size by twice the change in stored code units |
| Quota.CheckStorageQuota | src/utils/storageUtils.js:28-39 | size is the storage size, warning iff over 4 194 304, critical iff over 4 718 592, and critical implies warning |
| EntryStore.Slot | src/utils/storageUtils.js:58-64 | inaccessible storage is unreadable; a missing or empty text is absent; otherwise unparsable text is corrupt, a non-array is not an array, and an array is read as exactly that array |
| EntryStore.GetEntries | src/utils/storageUtils.js:58-69 | when the journal key holds non-empty text that parses to an array, exactly that array; in every other case the empty journal |
| EntryStore.ReadStoredText | src/utils/storageUtils.js:58-69 | text written straight under the journal key reads back as the array it parses to, or as the empty journal |
| EntryStore.SaveEntries | src/utils/storageUtils.js:76-93 | quota error when twice the text's UTF-16 length exceeds 4718592 or the browser capacity; "failed to save" when inaccessible; success otherwise; no write on any error; on success exactly the serialization under `journal_entries`, every other key and the capacity unchanged |
| EntryStore.ReadAfterSave | src/utils/storageUtils.js:76-93 | after a successful save, `getEntries` returns exactly the saved array |
| EntryStore.Stamp | src/utils/storageUtils.js:103-107 | the new entry keeps the caller's fields, with `id` and `timestamp` overwritten by the clock |
| EntryStore.AddEntry | src/utils/storageUtils.js:100-113 | succeeds exactly when saving the new journal does, leaving the storage that save leaves, and otherwise throws the save's error with no write; on success it returns the stamped entry and the journal becomes that entry followed by the old journal in order |
| EntryStore.AddedIdUnique | src/utils/storageUtils.js:105 | if no stored id equals the new clock id, the new entry's id is unique in the journal |
| EntryStore.FindIndex | src/utils/storageUtils.js:123 | `findIndex` gives the first position whose id is `===` the given one, or none iff no entry's is; an object or array id matches nothing |
| EntryStore.Patch | src/utils/storageUtils.js:129-133 | update fields win over entry fields and `updatedAt` is set to the clock |
| EntryStore.UpdateEntry | src/utils/storageUtils.js:121-137 | an unmatched id gives false with no write; for a matched id it returns true exactly when saving the patched journal succeeds, leaving the storage that save leaves, and otherwise throws the save's error with no write; on success the first match is replaced by its patch |
| EntryStore.UpdatePatchesFirstMatch | src/utils/storageUtils.js:123-133 | on success the first entry with the id is patched, and the length and every other position are unchanged |
| EntryStore.WithoutId | src/utils/storageUtils.js:146 | the filter keeps every entry whose id is not `===` the given one, as often as it occurs, and no other, in order; it keeps the length iff none matches |
| EntryStore.DeleteEntry | src/utils/storageUtils.js:144-154 | false with no write iff no entry's id matches; otherwise true exactly when saving the filtered journal succeeds, leaving the storage that save leaves, else the save's error with no write; on success the journal is the order-preserving filter |
| EntryStore.DeleteTwice | src/utils/storageUtils.js:144-154 | after a successful delete the id is gone and a second delete returns false |
| EntryStore.ObjectIdMatchesNothing | src/utils/storageUtils.js:123-126 | an object or array id makes both update and delete return false with no write |
| EntryStore.ClearAllEntries | src/utils/storageUtils.js:214-222 | true iff storage is accessible, then the key is removed and the storage stays accessible with the same capacity; every other key is unchanged |
| EntryStore.ClearTwice | src/utils/storageUtils.js:214-222 | clearing twice succeeds twice and the journal reads empty after each |
| Transfer.ExportEntries | src/utils/storageUtils.js:160-170 | the snapshot holds the current journal, its count, version 2.1.2 and the clock's date |
| Transfer.IdSet | src/utils/storageUtils.js:186 | the id set holds exactly the ids of the journal |
| Transfer.Unknown | src/utils/storageUtils.js:186-189 | the incoming entries that `existingIds.has` does not find (a primitive id not held, or any object or array id), each as often as it occurs, in order; empty iff every one is found |
| Transfer.Insert | src/utils/storageUtils.js:195-196 | insertion adds the entry to the multiset of the others |
| Transfer.InsertSorted | src/utils/storageUtils.js:195-196 | insertion into a newest-first list keeps it newest first |
| Transfer.SortNewestFirst | src/utils/storageUtils.js:195-196 | the sort is a permutation in non-increasing timestamp order |
| Transfer.ImportEntries | src/utils/storageUtils.js:177-208 | a parse failure, a null document or a missing array each throw with no write; with an array, no new ids means success with no write, and otherwise it succeeds exactly when saving the merge does, leaving the storage that save leaves, its only error being the wrapped save error; the counts add up to the incoming length; the imported count is the number of entries not found; on success the journal becomes a newest-first permutation of the old journal plus the new entries |
| Transfer.ImportKeepsKnownIdsOut | src/utils/storageUtils.js:185-198 | after an import every stored entry was already stored or is incoming with an id the journal's id set does not find |
| Transfer.ImportOwnExport | src/utils/storageUtils.js:191-192 | when every id is a primitive, importing the journal's own export imports 0, skips `entriesCount` and writes nothing |
| Transfer.ObjectIdReimported | src/utils/storageUtils.js:186-189 | an entry whose id is an object or array is not found by the id set, so re-importing the export imports it again |
| Mood.AnyOccurs | src/App.jsx:170-171 | `some(w => lower.includes(w))` is true iff some listed word occurs |
| Mood.DetectMood | src/App.jsx:168-173 | reflective iff a difficult word occurs in the lowered text; positive iff none does and a positive word does; neutral iff neither occurs |
| Mood.MoodIgnoresCase | src/App.jsx:169 | texts that lower to the same string get the same mood |
| Mood.MoodOfLowered | src/App.jsx:169 | lowering the text first does not change its mood |
| Mood.NegativePriority | src/App.jsx:170 | a difficult word gives reflective even when positive words also occur |
| Journal.HandleSave | src/App.jsx:105-120 | blank text changes nothing; otherwise one entry with the clock id and date, the detected mood, and source voice iff recording is put in front, and the text is cleared |
| Journal.Without | src/App.jsx:132 | the filter keeps every entry with another id as often as it occurs, and no other, in order |
| Journal.HandleDelete | src/App.jsx:130-133 | unconfirmed changes nothing; confirmed removes every entry with the id and keeps every other one as often as it occurs, in order |
| Journal.DeleteAbsentId | src/App.jsx:132 | deleting an id no entry has leaves the list as it was |
| Journal.InsightBatch | src/App.jsx:135-141 | nothing for an empty journal, else the first min(10, n) entries in order |
| Journal.DeleteUndoesSave | src/App.jsx:105-133 | saving non-blank text and then deleting the new entry by its fresh clock id gives back the list before the save |
| Journal.BatchOfPrepended | src/App.jsx:135-141 | an entry put in front of the list heads the batch, followed by at most nine older entries in order |
| Journal.SavedEntryHeadsBatch | src/App.jsx:105-141 | right after a save the insight batch starts with the new entry, followed by the nine newest older ones |
| History.FilteredEntries | src/components/HistoryView.jsx:6-8 | an entry is kept iff its lowered text includes the lowered term, each match as often as it occurs; the result is an order-preserving subsequence |
| History.FilterAppend | src/components/HistoryView.jsx:6-8 | the search distributes over concatenation |
| History.FilterIdempotent | src/components/HistoryView.jsx:6-8 | searching the result again changes nothing |
| History.EmptyTermKeepsAll | src/components/HistoryView.jsx:6-8 | an empty term keeps every entry |
| History.HistoryPane | src/components/HistoryView.jsx:24-35 | empty-journal pane iff no entries; no-match pane iff entries but no matches; otherwise the matches |
| RateLimit.Prune | server.js:41 | the pruned list keeps every time less than an hour old as often as it occurs (two requests in the same millisecond stay two), in order |
| RateLimit.CheckRateLimit | server.js:36-50 | accept iff fewer than ten recent times; a rejection changes nothing; an acceptance stores the pruned list plus now for that IP and touches no other IP |
| RateLimit.CheckKeepsBounded | server.js:43-48 | a check keeps every stored list at ten or fewer |
| RateLimit.RunBounded | server.js:32-50 | after any run of requests every stored list has at most ten times |
| RateLimit.StoredMatchesAccepted | server.js:41-48 | with a monotone clock, the stored list and the accepted times agree on every window from the latest call on |
| RateLimit.AtMostLimitPerWindow | server.js:33-50 | with a monotone clock, no IP has more than ten requests accepted in any one-hour window |
| InsightsServer.ValidEntries | server.js:71-77 | the body passes iff its `entries` is an array of at least three |
| InsightsServer.PromptItems | server.js:89-92 | prompt lines are numbered from one with each entry's date and text; the map throws exactly when some entry is null or has a `date` or `text` that cannot be turned into a string |
| InsightsServer.RecentPrompt | server.js:89-92 | the prompt holds the first min(7, n) entries, numbered from one, and fails exactly when one of them is null or has a `date` or `text` that cannot be turned into a string |
| InsightsServer.HandleInsights | server.js:58-129 | the rate limit is charged first and a 429 changes nothing; an admitted bad body gets 400, a null body, a missing key or a prompt that throws get their 500 replies, and none of these calls upstream; an upstream prompt is sent exactly when every check passes and is the prompt from the first seven entries; the reply then forwards the answer, passes on a refusal's status, or is 500 on failure |
| InsightsServer.LimiterIgnoresBody | server.js:64-77 | the limiter afterwards does not depend on the body, key or upstream |
| InsightsServer.InvalidBodyUsesSlot | server.js:64-77 | an admitted request with a bad body gets 400 and still stores its time |
| InsightsServer.ClientBodyRejected | server.js:71-77 | the client's `{entry}` body is answered 400 or 429 and never reaches upstream |
| InsightsServer.ToStringKeyFailsPrompt | server.js:89-92 | a `text` that is an object with its own `toString` key makes the admitted request a 500 with no upstream call |
| ApiClient.UnknownError | src/utils/apiUtils.js:157-162 | the catch-all error has message "Unknown error", status 500, and the error's message as details, or "An unexpected error occurred" when that is empty |
| ApiClient.Detail | src/utils/apiUtils.js:93 | `data.error` when truthy, else exactly the fallback text, so always truthy |
| ApiClient.StatusError | src/utils/apiUtils.js:87-109 | a non-ok status maps to "Too many requests" for 429, "Invalid request" for 400 and "Request failed" otherwise, keeping the status; the details are `data.error` when truthy, else "Please wait before trying again" for 429, "Invalid journal entry" for 400 and "An unexpected error occurred" otherwise; a null body gives the 500 "Unknown error" with the engine's null-read text |
| ApiClient.Accept | src/utils/apiUtils.js:112-131 | an ok body is accepted iff `success`, `data`, `mood` and `reflection` are truthy and `insights` is an array, and yields `data`; otherwise status 500 |
| ApiClient.GetAIInsights | src/utils/apiUtils.js:71-164 | an invalid entry gives 400 with no request; a valid one sends the trimmed text; timeout, network, parse, status and shape outcomes map as in the source; success iff an ok well-formed reply; an ok reply with a parsed body gives exactly the shape check's result, so a malformed one is a 500 error |
| ApiClient.Lift | src/utils/apiUtils.js:177-179 | a success stays a success and an error is thrown as itself |
| ApiClient.RetryFrom | src/utils/apiUtils.js:172-198 | from attempt k there are between 1 and maxRetries − k + 1 attempts, with one wait fewer, the i-th being 2^(k+i) s; past maxRetries nothing is attempted and the last error is thrown |
| ApiClient.RetrySpec | src/utils/apiUtils.js:172-198 | at most maxRetries + 1 attempts and one wait fewer; a negative maxRetries makes no attempt and throws undefined |
| ApiClient.StopsAt | src/utils/apiUtils.js:175-193 | the loop ends at the first attempt that succeeds, hits a 4xx, or is the last allowed, and returns that attempt's outcome |
| ApiClient.RetryStep | src/utils/apiUtils.js:186-193 | after a retryable failure that is not the last attempt, the loop goes on to the next attempt with one more wait of 2^k s |
| ApiClient.RetryStop | src/utils/apiUtils.js:175-188 | a success, a 4xx error or the last attempt ends the loop with that attempt's outcome and k + 1 attempts |
| ApiClient.RetryLoop | src/utils/apiUtils.js:172-198 | the `for` loop with its early returns and `break` computes exactly the fold over the outcomes |
| ApiClient.GetAIInsightsWithRetry | src/utils/apiUtils.js:172-198 | the retry loop over this entry's requests computes the fold and makes at most maxRetries + 1 attempts |
| ApiClient.FirstSuccessReturned | src/utils/apiUtils.js:175-177 | the first success is returned at once, after k + 1 attempts |
| ApiClient.ClientErrorStops | src/utils/apiUtils.js:181-184 | a 4xx error, the 408 timeout included, is thrown at once with no further attempt |
| ApiClient.TimeoutNotRetried | src/utils/apiUtils.js:42 | a timed-out request raises a 4xx error, so the loop does not retry it |
| ApiClient.AllFailLastThrown | src/utils/apiUtils.js:186-197 | when all attempts fail retryably, all maxRetries + 1 are made with waits 2^k s, and the last error is thrown |
| ApiClient.DefaultWaits | src/utils/apiUtils.js:187-193 | with the default two retries the waits are none, 1000 ms, or 1000 then 2000 ms |
| ApiClient.InvalidEntryNotRetried | src/utils/apiUtils.js:72-74 | an invalid entry fails on the first attempt with the 400 error and no wait |
| ApiClient.FormatErrorMessage | src/utils/apiUtils.js:239-245 | details when truthy, else the message; the generic text for a non-APIError |
| ApiClient.ShownMessageIsDetails | src/utils/apiUtils.js:239-245 | every error the client raises shows its details |
| StorageWarning.CheckStorage | components/StorageWarning.jsx:21-29 | a check stores the reading, clears dismissed when critical and keeps it otherwise |
| StorageWarning.Dismiss | components/StorageWarning.jsx:35-37 | dismiss sets the flag and keeps the reading |
| StorageWarning.Render | components/StorageWarning.jsx:39-48 | hidden iff no reading, no flag set, or dismissed while not critical; a shown banner is dismissible iff not critical |
| StorageWarning.Apply | components/StorageWarning.jsx:88-111 | a click does nothing unless the rendered banner offers a dismiss control |
| StorageWarning.CriticalAlwaysShown | components/StorageWarning.jsx:26-28 | right after a critical reading the critical banner shows, with no dismiss control |
| StorageWarning.DismissedNotCritical | components/StorageWarning.jsx:88-111 | the dismissed flag is never set while the latest reading is critical |
| StorageWarning.DismissedStaysHidden | components/StorageWarning.jsx:44-46 | a dismissed warning stays dismissed and hidden through any run without a critical reading |
| StorageWarning.NoDismissWhenCritical | components/StorageWarning.jsx:88-111 | a critical banner never offers dismiss |

## Left out

- Floating point. `formatBytes` (with `Math.log`) and the `percentage` text are not modelled. `Quota.QuotaStatus` holds only the size and the two flags.
- Storage enumeration. When storage is inaccessible, enumerating it in `getStorageSize` throws. `Quota.StorageSize` ignores the availability flag and always yields a size.
- `downloadEntriesAsFile`: Blob, object URL and anchor clicks are DOM I/O.
- JSON itself. Stringify and parse are functions of a `Runtime`, and the only assumption is that they round-trip. The 2-space indentation of the export text is not represented.
- `new Date(...)`. Parsing, NaN comparisons in the import sort, and `toLocaleDateString` in prompts and lists are not modelled. The sort key is an integer function `timeOf`, and prompt items carry the raw `date` value.
- Transfer.SortNewestFirst: the model sorts with an insertion sort. It proves a newest-first permutation but does not claim the engine's own `Array.prototype.sort` order among entries with equal timestamps.
- Non-object elements. A stored or imported array is taken to contain objects (`seq<Entry>`). Server-side entries are general values. There an element throws when it is `null` or when its `date` or `text` is an object with its own `toString` key, or an array holding one (`Json.ThrowsOnString`).
- Identity. `===` and `Set.has` on ids compare `undefined`, strings, numbers, booleans and `null` by value. Objects and arrays compare by reference. Every read of the journal or of an import file parses fresh values, so an object or array id never matches (`Json.SameId`, `Transfer.Known`). Numbers are integers, so `NaN` and `-0` do not arise.
- Id uniqueness is not a global invariant. `addEntry` ids are clock readings, so `EntryStore.AddedIdUnique` takes a fresh reading as a hypothesis. Imports do not deduplicate incoming entries among themselves.
- The journal screen's initial `JSON.parse` of `journalEntries` is not guarded and is not modelled. Neither is the effect that persists the list.
- Network and timers:
  - `fetch`, `AbortController` and the 30 s timer are reduced to a `Transport` outcome per attempt;
  - the back-off sleeps are recorded as wait lengths, not performed;
  - `checkHealth`, `debounce`/`createDebouncedInsights` and the app's `services/api.js` wrapper are not modelled.
- Server plumbing: Express, CORS, JSON body parsing, the listen code and the health endpoint. The upstream model request is reduced to its prompt items; its headers, model name and prompt wording are not modelled.
- The engine's TypeError text for a property read on `null` is written with V8's wording.
- UI: speech recognition, style injection, success and error banners, navigation, the insight view, export/import messages and the 30 s polling interval.
- Lone surrogates. A Dafny `char` is a Unicode scalar value, so a JavaScript string holding an unpaired surrogate cannot be represented. `LocalStorage.Units` gives the exact `length` of every string that can.
- `toLowerCase` and `trim`: lowering is ASCII only. Trimming uses the ECMAScript white-space and line-terminator set without Unicode category lookups beyond it.

=== FILE: apiclient.dfy ===
/**
 * The browser-side client of the insights API: input validation, the mapping of
 * every transport outcome and response to a result or an `APIError`, the retry loop
 * with exponential back-off, and the message shown for an error.
 */
module ApiClient {
  import opened Prelude
  import opened Json
  import opened Text

  /** `new APIError(message, status, details)`. */
  datatype ApiError = ApiError(message: string, status: int, details: Value)

  /**
   * What one `fetch` of `/api/insights` did, as the client sees it: the timeout fired
   * (an `AbortError`), `fetch` rejected with some other error, or a response arrived
   * whose body parses to `Some` value or is no JSON at all (`None`).
   */
  datatype Transport =
    | TimedOut
    | Rejected(isTypeError: bool, message: string)
    | Response(status: int, body: Option<Value>)

  /** What the client actually posts, when it posts: the trimmed entry. */
  datatype Call = Call(sent: Option<string>, result: Result<Value, ApiError>)

  const InvalidEntry := ApiError("Invalid entry", 400, Str("Entry cannot be empty"))
  const TimeoutError := ApiError("Request timeout", 408, Str("The request took too long to complete"))
  const NetworkError := ApiError("Network error", 0, Str("Unable to connect to the server. Please check your connection."))
  const ParseError := ApiError("Parse error", 500, Str("Unable to parse server response"))
  const InvalidResponse := ApiError("Invalid response", 500, Str("Received invalid response from server"))
  const InvalidFormat := ApiError("Invalid response format", 500, Str("AI response is missing required fields"))
  const GenericDetails: string := "An unexpected error occurred"

  /** The engine's message for reading `key` of `null` (V8's wording). */
  function NullRead(key: string): string {
    "Cannot read properties of null (reading '" + key + "')"
  }

  /** The text `getAIInsights` accepts: a string that is not blank. */
  predicate ValidEntry(entry: Option<Value>) {
    entry.Some? && entry.value.Str? && Trim(entry.value.s) != []
  }

  /** The catch-all: `new APIError('Unknown error', 500, error.message || ...)`. */
  function UnknownError(message: string): (e: ApiError)
    ensures e.message == "Unknown error"
    ensures e.status == 500 && Truthy(e.details)
    ensures message != [] ==> e.details == Str(message)
    ensures message == [] ==> e.details == Str(GenericDetails)
  {
    ApiError("Unknown error", 500, Str(if message == [] then GenericDetails else message))
  }

  /** `data.error || fallback`. */
  function Detail(data: Value, fallback: string): (v: Value)
    requires !data.Null? && fallback != []
    ensures Truthy(v)
    ensures Present(Get(data, "error")) ==> v == Get(data, "error").value
    ensures !Present(Get(data, "error")) ==> v == Str(fallback)
  {
    var err := Get(data, "error");
    if Present(err) then err.value else Str(fallback)
  }

  /** The error thrown for a non-ok status whose body parsed to `data`. */
  function StatusError(status: int, data: Value): (e: ApiError)
    ensures e.status == (if data.Null? then 500 else status)
    ensures !data.Null? && status == 429 ==> e.message == "Too many requests"
    ensures !data.Null? && status == 400 ==> e.message == "Invalid request"
    ensures !data.Null? && status != 429 && status != 400 ==> e.message == "Request failed"
    ensures !data.Null? && Present(Get(data, "error")) ==> e.details == Get(data, "error").value
    ensures !data.Null? && !Present(Get(data, "error")) ==>
      e.details == Str(if status == 429 then "Please wait before trying again"
                       else if status == 400 then "Invalid journal entry"
                       else GenericDetails)
    ensures data.Null? ==> e.message == "Unknown error" && e.details == Str(NullRead("error"))
    ensures Truthy(e.details)
  {
    if data.Null? then UnknownError(NullRead("error"))
    else if status == 429 then ApiError("Too many requests", 429, Detail(data, "Please wait before trying again"))
    else if status == 400 then ApiError("Invalid request", 400, Detail(data, "Invalid journal entry"))
    else ApiError("Request failed", status, Detail(data, GenericDetails))
  }

  /** The shape an ok reply must have: truthy `success` and `data`, and in `data` truthy `mood` and `reflection` and an array `insights`. */
  predicate WellFormed(data: Value) {
    && !data.Null?
    && Present(Get(data, "success"))
    && Present(Get(data, "data"))
    && Present(Get(Get(data, "data").value, "mood"))
    && Present(Get(Get(data, "data").value, "reflection"))
    && Get(Get(data, "data").value, "insights").Some?
    && Get(Get(data, "data").value, "insights").value.List?
  }

  /** The result for an ok status whose body parsed to `data`. */
  function Accept(data: Value): (r: Result<Value, ApiError>)
    ensures r.Ok? <==> WellFormed(data)
    ensures r.Ok? ==> r.value == Get(data, "data").value
    ensures r.Err? ==> r.error.status == 500 && Truthy(r.error.details)
  {
    if data.Null? then Err(UnknownError(NullRead("success")))
    else if !Present(Get(data, "success")) || !Present(Get(data, "data")) then Err(InvalidResponse)
    else
      var inner := Get(data, "data").value;
      var insights := Get(inner, "insights");
      if !Present(Get(inner, "mood")) || !(insights.Some? && insights.value.List?)
         || !Present(Get(inner, "reflection"))
      then Err(InvalidFormat)
      else Ok(inner)
  }

  /** `getAIInsights(entry)`, one request whose outcome is `t`. */
  function GetAIInsights(entry: Option<Value>, t: Transport): (r: Call)
    ensures r.sent.None? <==> !ValidEntry(entry)
    ensures !ValidEntry(entry) ==> r.result == Err(InvalidEntry)
    ensures r.sent.Some? ==> r.sent.value == Trim(entry.value.s)
    ensures ValidEntry(entry) && t == TimedOut ==> r.result == Err(TimeoutError)
    ensures ValidEntry(entry) && t.Rejected? ==>
      r.result == Err(if t.isTypeError && Contains(t.message, "fetch") then NetworkError else UnknownError(t.message))
    ensures ValidEntry(entry) && t.Response? && t.body.None? ==> r.result == Err(ParseError)
    ensures ValidEntry(entry) && t.Response? && t.body.Some? && !(200 <= t.status < 300) ==>
      r.result == Err(StatusError(t.status, t.body.value))
    ensures r.result.Ok? <==>
      ValidEntry(entry) && t.Response? && t.body.Some? && 200 <= t.status < 300 && WellFormed(t.body.value)
    ensures r.result.Ok? ==> r.result.value == Get(t.body.value, "data").value
    ensures ValidEntry(entry) && t.Response? && t.body.Some? && 200 <= t.status < 300 ==>
      r.result == Accept(t.body.value)
    ensures r.result.Err? ==> Truthy(r.result.error.details)
  {
    if !ValidEntry(entry) then Call(None, Err(InvalidEntry))
    else
      var sent := Some(Trim(entry.value.s));
      match t
      case TimedOut => Call(sent, Err(TimeoutError))
      case Rejected(isTypeError, message) =>
        Call(sent, Err(if isTypeError && Contains(message, "fetch") then NetworkError else UnknownError(message)))
      case Response(status, body) =>
        match body
        case None => Call(sent, Err(ParseError))
        case Some(data) =>
          if !(200 <= status < 300) then Call(sent, Err(StatusError(status, data)))
          else Call(sent, Accept(data))
  }

  /** A client error (4xx) is never retried. */
  predicate ClientError(e: ApiError) {
    400 <= e.status < 500
  }

  /** What `getAIInsightsWithRetry` throws: an error, or `undefined` when no attempt was made. */
  datatype Thrown = Raised(error: ApiError) | Undefined

  /** The result, the number of requests made, and the back-off waits in milliseconds. */
  datatype Retried = Retried(result: Result<Value, Thrown>, attempts: nat, waits: seq<nat>)

  function Pow2(k: nat): (r: nat)
    ensures r >= 1
  {
    if k == 0 then 1 else 2 * Pow2(k - 1)
  }

  /** `Math.pow(2, attempt) * 1000`. */
  function Backoff(k: nat): nat {
    Pow2(k) * 1000
  }

  /** The outcome of every attempt, when the world answers attempt `k` with `world(k)`. */
  function Outcomes(entry: Option<Value>, world: nat -> Transport): nat -> Result<Value, ApiError> {
    (k: nat) => GetAIInsights(entry, world(k)).result
  }

  /** A failure the loop retries after (unless it was the last attempt). */
  predicate Retryable(r: Result<Value, ApiError>) {
    r.Err? && !ClientError(r.error)
  }

  function Lift(r: Result<Value, ApiError>): (t: Result<Value, Thrown>)
    ensures t.Ok? <==> r.Ok?
    ensures r.Ok? ==> t.value == r.value
    ensures r.Err? ==> t.error == Raised(r.error)
  {
    match r
    case Ok(v) => Ok(v)
    case Err(e) => Err(Raised(e))
  }

  /**
   * The attempts from number `k` on, `last` being the error the previous attempt
   * threw: a fold over the outcomes that stops at the first success, the first
   * client error, or after attempt `maxRetries`.
   */
  function RetryFrom(outcome: nat -> Result<Value, ApiError>, maxRetries: int, k: nat, last: Thrown)
    : (r: Retried)
    ensures k > maxRetries ==> r == Retried(Err(last), 0, [])
    ensures k <= maxRetries ==> 1 <= r.attempts <= maxRetries - k + 1
    ensures |r.waits| == if r.attempts == 0 then 0 else r.attempts - 1
    ensures forall i :: 0 <= i < |r.waits| ==> r.waits[i] == Backoff(k + i)
    decreases maxRetries - k
  {
    if k > maxRetries then Retried(Err(last), 0, [])
    else
      var out := outcome(k);
      if !Retryable(out) || k == maxRetries then Retried(Lift(out), 1, [])
      else
        var rest := RetryFrom(outcome, maxRetries, k + 1, Raised(out.error));
        Retried(rest.result, rest.attempts + 1, [Backoff(k)] + rest.waits)
  }

  /** `getAIInsightsWithRetry(entry, maxRetries)`, as a fold from attempt zero. */
  function RetrySpec(entry: Option<Value>, maxRetries: int, world: nat -> Transport): (r: Retried)
    ensures r.attempts <= if maxRetries < 0 then 0 else maxRetries + 1
    ensures maxRetries < 0 ==> r == Retried(Err(Undefined), 0, [])
    ensures maxRetries >= 0 ==> r.attempts >= 1 && |r.waits| == r.attempts - 1
  {
    RetryFrom(Outcomes(entry, world), maxRetries, 0, Undefined)
  }

  /**
   * The loop ends at attempt `k` when every attempt from `k0` before it failed with a
   * retryable error and attempt `k` did not, or was the last one allowed.
   */
  lemma {:induction false} StopsAt(outcome: nat -> Result<Value, ApiError>, maxRetries: int, k0: nat, k: nat, last: Thrown)
    requires k0 <= k <= maxRetries
    requires forall j :: k0 <= j < k ==> Retryable(outcome(j))
    requires !Retryable(outcome(k)) || k == maxRetries
    ensures RetryFrom(outcome, maxRetries, k0, last).attempts == k - k0 + 1
    ensures RetryFrom(outcome, maxRetries, k0, last).result == Lift(outcome(k))
    decreases k - k0
  {
    if k0 < k {
      assert Retryable(outcome(k0));
      StopsAt(outcome, maxRetries, k0 + 1, k, Raised(outcome(k0).error));
    }
  }

  /** `r` preceded by `k` attempts that waited `waits`. */
  function After(k: nat, waits: seq<nat>, r: Retried): Retried {
    Retried(r.result, r.attempts + k, waits + r.waits)
  }

  /** A failed, retryable attempt that is not the last hands over to the next one. */
  lemma RetryStep(outcome: nat -> Result<Value, ApiError>, maxRetries: int, k: nat, last: Thrown, waits: seq<nat>)
    requires k < maxRetries && Retryable(outcome(k))
    ensures After(k, waits, RetryFrom(outcome, maxRetries, k, last))
         == After(k + 1, waits + [Backoff(k)], RetryFrom(outcome, maxRetries, k + 1, Raised(outcome(k).error)))
  {
    var rest := RetryFrom(outcome, maxRetries, k + 1, Raised(outcome(k).error));
    assert waits + ([Backoff(k)] + rest.waits) == (waits + [Backoff(k)]) + rest.waits;
  }

  /** A success, a client error, or the last attempt ends the loop with that attempt's outcome. */
  lemma RetryStop(outcome: nat -> Result<Value, ApiError>, maxRetries: int, k: nat, last: Thrown, waits: seq<nat>)
    requires k <= maxRetries && (!Retryable(outcome(k)) || k == maxRetries)
    ensures After(k, waits, RetryFrom(outcome, maxRetries, k, last)) == Retried(Lift(outcome(k)), k + 1, waits)
  {
    assert waits + [] == waits;
  }

  /** The retry loop over any outcomes, computing the fold from attempt zero. */
  method RetryLoop(outcome: nat -> Result<Value, ApiError>, maxRetries: int) returns (r: Retried)
    ensures r == RetryFrom(outcome, maxRetries, 0, Undefined)
  {
    var last := Undefined;
    var attempt: nat := 0;
    var waits: seq<nat> := [];
    assert [] + RetryFrom(outcome, maxRetries, 0, Undefined).waits == RetryFrom(outcome, maxRetries, 0, Undefined).waits;
    while attempt <= maxRetries
      invariant attempt == 0 || attempt <= maxRetries
      invariant RetryFrom(outcome, maxRetries, 0, Undefined)
             == After(attempt, waits, RetryFrom(outcome, maxRetries, attempt, last))
      decreases maxRetries - attempt
    {
      var out := outcome(attempt);
      if out.Ok? {
        RetryStop(outcome, maxRetries, attempt, last, waits);
        return Retried(Ok(out.value), attempt + 1, waits);
      }
      if ClientError(out.error) || attempt == maxRetries {
        RetryStop(outcome, maxRetries, attempt, last, waits);
        return Retried(Err(Raised(out.error)), attempt + 1, waits);
      }
      RetryStep(outcome, maxRetries, attempt, last, waits);
      last := Raised(out.error);
      waits := waits + [Backoff(attempt)];
      attempt := attempt + 1;
    }
    return Retried(Err(last), attempt, waits);
  }

  /** `getAIInsightsWithRetry(entry, maxRetries)`: the loop over this entry's requests. */
  method GetAIInsightsWithRetry(entry: Option<Value>, maxRetries: int, world: nat -> Transport)
    returns (r: Retried)
    ensures r == RetrySpec(entry, maxRetries, world)
    ensures r.attempts <= if maxRetries < 0 then 0 else maxRetries + 1
  {
    r := RetryLoop(Outcomes(entry, world), maxRetries);
  }

  /** The first success ends the loop: nothing after it is requested. */
  lemma FirstSuccessReturned(outcome: nat -> Result<Value, ApiError>, maxRetries: int, k: nat)
    requires k <= maxRetries
    requires forall j :: 0 <= j < k ==> Retryable(outcome(j))
    requires outcome(k).Ok?
    ensures RetryFrom(outcome, maxRetries, 0, Undefined).attempts == k + 1
    ensures RetryFrom(outcome, maxRetries, 0, Undefined).result == Ok(outcome(k).value)
  {
    StopsAt(outcome, maxRetries, 0, k, Undefined);
  }

  /** A client error (400-499, the 408 timeout among them) stops the loop at once and is thrown. */
  lemma ClientErrorStops(outcome: nat -> Result<Value, ApiError>, maxRetries: int, k: nat)
    requires k <= maxRetries
    requires forall j :: 0 <= j < k ==> Retryable(outcome(j))
    requires outcome(k).Err? && ClientError(outcome(k).error)
    ensures RetryFrom(outcome, maxRetries, 0, Undefined).attempts == k + 1
    ensures RetryFrom(outcome, maxRetries, 0, Undefined).result == Err(Raised(outcome(k).error))
  {
    StopsAt(outcome, maxRetries, 0, k, Undefined);
  }

  /** When every attempt fails with a retryable error, all are made and the last error is thrown. */
  lemma AllFailLastThrown(outcome: nat -> Result<Value, ApiError>, maxRetries: nat)
    requires forall j :: 0 <= j <= maxRetries ==> Retryable(outcome(j))
    ensures RetryFrom(outcome, maxRetries, 0, Undefined).attempts == maxRetries + 1
    ensures outcome(maxRetries).Err?
    ensures RetryFrom(outcome, maxRetries, 0, Undefined).result == Err(Raised(outcome(maxRetries).error))
    ensures RetryFrom(outcome, maxRetries, 0, Undefined).waits
         == seq(maxRetries, (i: int) requires 0 <= i => Backoff(i))
  {
    StopsAt(outcome, maxRetries, 0, maxRetries, Undefined);
  }

  /** The timeout error is a client error: a timed-out request is never retried. */
  lemma TimeoutNotRetried(entry: Option<Value>, world: nat -> Transport, k: nat)
    requires ValidEntry(entry) && world(k) == TimedOut
    ensures !Retryable(Outcomes(entry, world)(k))
  {
  }

  /** With the default of two retries the only waits are one and two seconds. */
  lemma DefaultWaits(outcome: nat -> Result<Value, ApiError>)
    ensures var w := RetryFrom(outcome, 2, 0, Undefined).waits;
      w == [] || w == [1000] || w == [1000, 2000]
  {
    var w := RetryFrom(outcome, 2, 0, Undefined).waits;
    assert Pow2(0) == 1;
    assert Pow2(1) == 2 * Pow2(0);
    assert |w| <= 2;
    if |w| == 1 {
      assert w == [Backoff(0)];
    } else if |w| == 2 {
      assert w == [Backoff(0), Backoff(1)];
    }
  }

  /** An invalid entry is rejected on the first attempt, with no request sent. */
  lemma InvalidEntryNotRetried(entry: Option<Value>, maxRetries: int, world: nat -> Transport)
    requires !ValidEntry(entry) && maxRetries >= 0
    ensures RetrySpec(entry, maxRetries, world) == Retried(Err(Raised(InvalidEntry)), 1, [])
  {
    assert Outcomes(entry, world)(0) == Err(InvalidEntry);
    StopsAt(Outcomes(entry, world), maxRetries, 0, 0, Undefined);
  }

  /** `formatErrorMessage(error)`: the details when truthy, else the message. */
  function FormatErrorMessage(t: Thrown): (s: Value)
    ensures t.Raised? && Truthy(t.error.details) ==> s == t.error.details
    ensures t.Raised? && !Truthy(t.error.details) ==> s == Str(t.error.message)
    ensures t.Undefined? ==> s == Str("An unexpected error occurred. Please try again.")
  {
    match t
    case Raised(e) => if Truthy(e.details) then e.details else Str(e.message)
    case Undefined => Str("An unexpected error occurred. Please try again.")
  }

  /** Every error the client throws carries truthy details, so those are what the user sees. */
  lemma ShownMessageIsDetails(entry: Option<Value>, t: Transport)
    requires GetAIInsights(entry, t).result.Err?
    ensures var e := GetAIInsights(entry, t).result.error;
      FormatErrorMessage(Raised(e)) == e.details
  {
  }
}

=== FILE: entrystore.dfy ===
/**
 * The entry store: the whole journal lives under one `localStorage` key as the JSON
 * text of an array of entries. Reads fail open to the empty journal; every mutation
 * rewrites the whole array through a size-checked save. Each operation maps the old
 * storage to a result and the new storage; a failed save leaves the storage as it was.
 */
module EntryStore {
  import opened Prelude
  import opened Json
  import opened LocalStorage
  import Text
  import Seqs

  const StorageKey: string := "journal_entries"

  /** `saveEntries` refuses text whose estimated size exceeds 4.5 MiB (2 bytes per code unit). */
  const SaveCeiling: nat := 4718592

  /** What `JSON.parse` followed by `Array.isArray` makes of a stored text. */
  datatype Parsed = Unparsable | NonArray | Array(entries: seq<Entry>)

  /**
   * The JSON layer and the date parser, which the model does not re-implement:
   * `stringify` is `JSON.stringify` on an entry array, `parse` is `JSON.parse` seen
   * through `Array.isArray`, and `timeOf(e)` is `new Date(e.timestamp)` in milliseconds.
   */
  datatype Runtime = Runtime(
    stringify: seq<Entry> -> string,
    parse: string -> Parsed,
    timeOf: Entry -> int)

  /** JSON text of an entry array reads back as that array, and is never empty. */
  ghost predicate Faithful(rt: Runtime) {
    forall es: seq<Entry> :: rt.parse(rt.stringify(es)) == Array(es) && rt.stringify(es) != ""
  }

  /** The journal slot as `getEntries` finds it. */
  datatype Payload = Unreadable | Absent | Corrupt | NotArray | Arr(entries: seq<Entry>)

  /** The two exceptions `saveEntries` throws: the quota message and "Failed to save entries". */
  datatype SaveError = QuotaExceeded | SaveFailed

  /** The storage after an operation, and what the operation returned or threw. */
  datatype Step<+R, +E> = Step(storage: Storage, result: Result<R, E>)

  function Slot(rt: Runtime, st: Storage): (p: Payload)
    ensures !st.available ==> p == Unreadable
    ensures st.available && GetItem(st, StorageKey).None? ==> p == Absent
    ensures st.available && GetItem(st, StorageKey) == Some("") ==> p == Absent
    ensures st.available && GetItem(st, StorageKey).Some? && GetItem(st, StorageKey).value != "" ==>
      var parsed := rt.parse(GetItem(st, StorageKey).value);
      && (parsed == Unparsable ==> p == Corrupt)
      && (parsed == NonArray ==> p == NotArray)
      && (parsed.Array? ==> p == Arr(parsed.entries))
    ensures p.Arr? ==> exists text :: GetItem(st, StorageKey) == Some(text) && rt.parse(text) == Array(p.entries)
  {
    if !st.available then Unreadable
    else match GetItem(st, StorageKey)
      case None => Absent
      case Some(text) =>
        // An empty string is falsy, so it reads like a missing key.
        if text == "" then Absent
        else match rt.parse(text)
          case Unparsable => Corrupt
          case NonArray => NotArray
          case Array(es) => Arr(es)
  }

  /** The storage is readable and its journal key holds non-empty text that parses to an array. */
  predicate HoldsArray(rt: Runtime, st: Storage) {
    && st.available && GetItem(st, StorageKey).Some? && GetItem(st, StorageKey).value != ""
    && rt.parse(GetItem(st, StorageKey).value).Array?
  }

  /** `getEntries()`: the stored array, or the empty journal whenever the slot holds none. */
  function GetEntries(rt: Runtime, st: Storage): (r: seq<Entry>)
    ensures r == if HoldsArray(rt, st) then rt.parse(GetItem(st, StorageKey).value).entries else []
    ensures Slot(rt, st).Arr? ==> r == Slot(rt, st).entries
    ensures !Slot(rt, st).Arr? ==> r == []
  {
    match Slot(rt, st)
    case Arr(es) => es
    case _ => []
  }

  /**
   * `saveEntries(entries)`: refuse text over the ceiling, otherwise `setItem`, with the
   * browser's own quota rejection normalised to the same error.
   */
  function SaveEntries(rt: Runtime, st: Storage, es: seq<Entry>): (r: Step<(), SaveError>)
    requires Valid(st)
    ensures r.result.Err? ==> r.storage == st
    ensures 2 * Units(rt.stringify(es)) > SaveCeiling ==> r.result == Err(QuotaExceeded)
    ensures st.available && 2 * Chars(Put(st.items, StorageKey, rt.stringify(es))) > st.capacity ==>
      r.result == Err(QuotaExceeded)
    ensures !st.available && 2 * Units(rt.stringify(es)) <= SaveCeiling ==> r.result == Err(SaveFailed)
    ensures (&& st.available
             && 2 * Units(rt.stringify(es)) <= SaveCeiling
             && 2 * Chars(Put(st.items, StorageKey, rt.stringify(es))) <= st.capacity) ==> r.result.Ok?
    ensures r.result.Ok? ==> Valid(r.storage) && r.storage.available && r.storage.capacity == st.capacity
    ensures r.result.Ok? ==> GetItem(r.storage, StorageKey) == Some(rt.stringify(es))
    ensures r.result.Ok? ==> forall k :: k != StorageKey ==> GetItem(r.storage, k) == GetItem(st, k)
  {
    var data := rt.stringify(es);
    if 2 * Units(data) > SaveCeiling then Step(st, Err(QuotaExceeded))
    else match SetItem(st, StorageKey, data)
      case Ok(st') => Step(st', Ok(()))
      case Err(QuotaExceededError) => Step(st, Err(QuotaExceeded))
      case Err(SecurityError) => Step(st, Err(SaveFailed))
  }

  /**
   * Text written straight under the journal key reads back as the array it parses to,
   * and as the empty journal when it is empty or parses to anything else.
   */
  lemma ReadStoredText(rt: Runtime, st: Storage, text: string)
    requires Valid(st) && st.available
    requires 2 * Chars(Put(st.items, StorageKey, text)) <= st.capacity
    ensures var read := GetEntries(rt, SetItem(st, StorageKey, text).value);
      && (text != "" && rt.parse(text).Array? ==> read == rt.parse(text).entries)
      && (text == "" || !rt.parse(text).Array? ==> read == [])
  {
  }

  /** After a successful save, `getEntries` returns exactly the saved array. */
  lemma ReadAfterSave(rt: Runtime, st: Storage, es: seq<Entry>)
    requires Valid(st)
    ensures Faithful(rt) && SaveEntries(rt, st, es).result.Ok? ==>
      GetEntries(rt, SaveEntries(rt, st, es).storage) == es
  {
    if Faithful(rt) {
      assert rt.parse(rt.stringify(es)) == Array(es);
    }
  }

  /** The entry `addEntry` stores: the caller's fields, with `id` and `timestamp` generated. */
  function Stamp(entry: Entry, clock: Clock): (e: Entry)
    ensures e.Keys == entry.Keys + {"id", "timestamp"}
    ensures IdOf(e) == Some(Str(Text.DecimalString(clock.millis)))
    ensures Field(e, "timestamp") == Some(Str(clock.iso))
    ensures forall k :: k in entry && k != "id" && k != "timestamp" ==> e[k] == entry[k]
  {
    entry + map["id" := Str(Text.DecimalString(clock.millis)), "timestamp" := Str(clock.iso)]
  }

  /** `addEntry(entry)`: put the stamped entry in front of the journal and save. */
  function AddEntry(rt: Runtime, st: Storage, entry: Entry, clock: Clock): (r: Step<Entry, SaveError>)
    requires Valid(st)
    ensures var saved := SaveEntries(rt, st, [Stamp(entry, clock)] + GetEntries(rt, st));
      && (r.result.Ok? <==> saved.result.Ok?)
      && (r.result.Ok? ==> r.storage == saved.storage)
      && (saved.result.Err? ==> r.result == Err(saved.result.error))
    ensures r.result.Err? ==> r.storage == st
    ensures r.result.Ok? ==> r.result.value == Stamp(entry, clock)
    ensures r.result.Ok? ==> Valid(r.storage)
    ensures Faithful(rt) && r.result.Ok? ==>
      GetEntries(rt, r.storage) == [Stamp(entry, clock)] + GetEntries(rt, st)
  {
    var newEntry := Stamp(entry, clock);
    var es := [newEntry] + GetEntries(rt, st);
    var saved := SaveEntries(rt, st, es);
    ReadAfterSave(rt, st, es);
    match saved.result
    case Ok(_) => Step(saved.storage, Ok(newEntry))
    case Err(e) => Step(st, Err(e))
  }

  /** With a clock reading no stored entry used as its id, the new id is unique. */
  lemma AddedIdUnique(rt: Runtime, st: Storage, entry: Entry, clock: Clock)
    requires Faithful(rt) && Valid(st)
    requires forall e :: e in GetEntries(rt, st) ==> IdOf(e) != Some(Str(Text.DecimalString(clock.millis)))
    requires AddEntry(rt, st, entry, clock).result.Ok?
    ensures var after := GetEntries(rt, AddEntry(rt, st, entry, clock).storage);
      && IdOf(after[0]) == IdOf(Stamp(entry, clock))
      && forall i :: 0 < i < |after| ==> IdOf(after[i]) != IdOf(after[0])
  {
    var after := GetEntries(rt, AddEntry(rt, st, entry, clock).storage);
    assert after == [Stamp(entry, clock)] + GetEntries(rt, st);
    forall i | 0 < i < |after|
      ensures IdOf(after[i]) != IdOf(after[0])
    {
      assert after[i] in GetEntries(rt, st);
    }
  }

  /** `findIndex(entry => entry.id === id)`: the first position holding that id. */
  function FindIndex(es: seq<Entry>, id: Option<Value>): (r: Option<nat>)
    ensures r.None? <==> forall j :: 0 <= j < |es| ==> !SameId(IdOf(es[j]), id)
    ensures r.Some? ==> r.value < |es| && SameId(IdOf(es[r.value]), id)
    ensures r.Some? ==> forall j :: 0 <= j < r.value ==> !SameId(IdOf(es[j]), id)
  {
    if es == [] then None
    else if SameId(IdOf(es[0]), id) then Some(0)
    else match FindIndex(es[1..], id)
      case None => None
      case Some(i) => Some(i + 1)
  }

  /** `{...entry, ...updates, updatedAt}`: patch fields win, and `updatedAt` is stamped last. */
  function Patch(entry: Entry, updates: Entry, clock: Clock): (e: Entry)
    ensures e.Keys == entry.Keys + updates.Keys + {"updatedAt"}
    ensures Field(e, "updatedAt") == Some(Str(clock.iso))
    ensures forall k :: k in updates && k != "updatedAt" ==> e[k] == updates[k]
    ensures forall k :: k in entry && k !in updates && k != "updatedAt" ==> e[k] == entry[k]
  {
    entry + updates + map["updatedAt" := Str(clock.iso)]
  }

  /** `updateEntry(id, updates)`: patch the first entry carrying `id`; `false` when none does. */
  function UpdateEntry(rt: Runtime, st: Storage, id: Option<Value>, updates: Entry, clock: Clock)
    : (r: Step<bool, SaveError>)
    requires Valid(st)
    ensures (forall e :: e in GetEntries(rt, st) ==> !SameId(IdOf(e), id)) ==> r == Step(st, Ok(false))
    ensures (exists e :: e in GetEntries(rt, st) && SameId(IdOf(e), id)) ==> r.result != Ok(false)
    ensures FindIndex(GetEntries(rt, st), id).Some? ==>
      var before := GetEntries(rt, st);
      var i := FindIndex(before, id).value;
      var saved := SaveEntries(rt, st, before[i := Patch(before[i], updates, clock)]);
      && (r.result == Ok(true) <==> saved.result.Ok?)
      && (r.result.Ok? ==> r.storage == saved.storage)
      && (saved.result.Err? ==> r.result == Err(saved.result.error))
    ensures r.result.Err? ==> r.storage == st
    ensures r.result.Ok? ==> Valid(r.storage)
    ensures r.result == Ok(true) ==> FindIndex(GetEntries(rt, st), id).Some?
    ensures Faithful(rt) && r.result == Ok(true) ==>
      var before := GetEntries(rt, st);
      var i := FindIndex(before, id).value;
      GetEntries(rt, r.storage) == before[i := Patch(before[i], updates, clock)]
  {
    var es := GetEntries(rt, st);
    match FindIndex(es, id)
    case None => Step(st, Ok(false))
    case Some(i) =>
      var es' := es[i := Patch(es[i], updates, clock)];
      var saved := SaveEntries(rt, st, es');
      ReadAfterSave(rt, st, es');
      match saved.result
      case Ok(_) => Step(saved.storage, Ok(true))
      case Err(e) => Step(st, Err(e))
  }

  /**
   * A successful update patches the first entry carrying the id and leaves the
   * length and every other position as they were.
   */
  lemma UpdatePatchesFirstMatch(rt: Runtime, st: Storage, id: Option<Value>, updates: Entry, clock: Clock)
    requires Faithful(rt) && Valid(st)
    requires UpdateEntry(rt, st, id, updates, clock).result == Ok(true)
    ensures var before := GetEntries(rt, st);
      var after := GetEntries(rt, UpdateEntry(rt, st, id, updates, clock).storage);
      var i := FindIndex(before, id).value;
      && |after| == |before|
      && SameId(IdOf(before[i]), id)
      && (forall j :: 0 <= j < i ==> !SameId(IdOf(before[j]), id))
      && after[i] == Patch(before[i], updates, clock)
      && forall j :: 0 <= j < |before| && j != i ==> after[j] == before[j]
  {
    var before := GetEntries(rt, st);
    var i := FindIndex(before, id).value;
    var after := GetEntries(rt, UpdateEntry(rt, st, id, updates, clock).storage);
    assert after == before[i := Patch(before[i], updates, clock)];
  }

  function IdIsNot(id: Option<Value>): Entry -> bool {
    (e: Entry) => !SameId(IdOf(e), id)
  }

  /** `entries.filter(entry => entry.id !== id)`. */
  function WithoutId(es: seq<Entry>, id: Option<Value>): (r: seq<Entry>)
    ensures forall e :: e in r <==> e in es && !SameId(IdOf(e), id)
    ensures forall e :: multiset(r)[e] == if !SameId(IdOf(e), id) then multiset(es)[e] else 0
    ensures Seqs.IsSubsequence(r, es)
    ensures |r| == |es| <==> forall e :: e in es ==> !SameId(IdOf(e), id)
  {
    Seqs.FilterSpec(es, IdIsNot(id));
    Seqs.Filter(es, IdIsNot(id))
  }

  /** `deleteEntry(id)`: drop every entry carrying `id`; `false`, with no write, when none does. */
  function DeleteEntry(rt: Runtime, st: Storage, id: Option<Value>): (r: Step<bool, SaveError>)
    requires Valid(st)
    ensures r == Step(st, Ok(false)) <==> forall e :: e in GetEntries(rt, st) ==> !SameId(IdOf(e), id)
    ensures FindIndex(GetEntries(rt, st), id).Some? ==>
      var saved := SaveEntries(rt, st, WithoutId(GetEntries(rt, st), id));
      && (r.result == Ok(true) <==> saved.result.Ok?)
      && (r.result.Ok? ==> r.storage == saved.storage)
      && (saved.result.Err? ==> r.result == Err(saved.result.error))
    ensures r.result.Err? ==> r.storage == st
    ensures r.result.Ok? ==> Valid(r.storage)
    ensures Faithful(rt) && r.result == Ok(true) ==>
      GetEntries(rt, r.storage) == WithoutId(GetEntries(rt, st), id)
  {
    var es := GetEntries(rt, st);
    var kept := WithoutId(es, id);
    if |kept| == |es| then Step(st, Ok(false))
    else
      var saved := SaveEntries(rt, st, kept);
      ReadAfterSave(rt, st, kept);
      match saved.result
      case Ok(_) => Step(saved.storage, Ok(true))
      case Err(e) => Step(st, Err(e))
  }

  /** After a successful delete the id is gone, and deleting it again returns `false`. */
  lemma DeleteTwice(rt: Runtime, st: Storage, id: Option<Value>)
    requires Faithful(rt) && Valid(st)
    requires DeleteEntry(rt, st, id).result == Ok(true)
    ensures forall e :: e in GetEntries(rt, DeleteEntry(rt, st, id).storage) ==> !SameId(IdOf(e), id)
    ensures var st' := DeleteEntry(rt, st, id).storage;
      DeleteEntry(rt, st', id) == Step(st', Ok(false))
  {
  }

  /**
   * An object or array id matches no entry: `updateEntry` and `deleteEntry` return
   * `false` and write nothing, even when a stored entry has a structurally equal id.
   */
  lemma ObjectIdMatchesNothing(rt: Runtime, st: Storage, id: Option<Value>, updates: Entry, clock: Clock)
    requires Valid(st)
    requires !ByValue(id)
    ensures UpdateEntry(rt, st, id, updates, clock) == Step(st, Ok(false))
    ensures DeleteEntry(rt, st, id) == Step(st, Ok(false))
  {
  }

  /** `clearAllEntries()`: remove the key; `false` when storage refuses, and it never throws. */
  function ClearAllEntries(st: Storage): (r: (Storage, bool))
    requires Valid(st)
    ensures r.1 <==> st.available
    ensures !r.1 ==> r.0 == st
    ensures Valid(r.0)
    ensures r.1 ==> GetItem(r.0, StorageKey).None?
    ensures r.1 ==> r.0.capacity == st.capacity && r.0.available
    ensures forall k :: k != StorageKey ==> GetItem(r.0, k) == GetItem(st, k)
  {
    match RemoveItem(st, StorageKey)
    case Ok(st') => (st', true)
    case Err(_) => (st, false)
  }

  /** Clearing twice succeeds twice and leaves the empty journal after either call. */
  lemma ClearTwice(rt: Runtime, st: Storage)
    requires Valid(st) && st.available
    ensures var (st1, ok1) := ClearAllEntries(st);
      && ok1 && GetEntries(rt, st1) == []
      && var (st2, ok2) := ClearAllEntries(st1);
      ok2 && GetEntries(rt, st2) == []
  {
    var (st1, ok1) := ClearAllEntries(st);
    assert st1.available by {
      assert RemoveItem(st, StorageKey).Ok?;
    }
  }
}

=== FILE: history.dfy ===
/** The history screen: a case-insensitive search over the journal and the pane it shows. */
module History {
  import Text
  import Seqs
  import opened Journal

  /** The search keeps an entry when its lowercased text includes the lowercased term. */
  predicate Matches(e: JournalEntry, term: string) {
    Text.Contains(Text.ToLower(e.text), Text.ToLower(term))
  }

  function SearchFor(term: string): JournalEntry -> bool {
    (e: JournalEntry) => Matches(e, term)
  }

  /** `filteredEntries`: the matching entries, in journal order. */
  function FilteredEntries(entries: seq<JournalEntry>, term: string): (r: seq<JournalEntry>)
    ensures forall e :: e in r <==> e in entries && Matches(e, term)
    ensures forall e :: multiset(r)[e] == if Matches(e, term) then multiset(entries)[e] else 0
    ensures Seqs.IsSubsequence(r, entries)
  {
    Seqs.FilterSpec(entries, SearchFor(term));
    Seqs.Filter(entries, SearchFor(term))
  }

  /** The search acts entry by entry: it splits over concatenation. */
  lemma FilterAppend(a: seq<JournalEntry>, b: seq<JournalEntry>, term: string)
    ensures FilteredEntries(a + b, term) == FilteredEntries(a, term) + FilteredEntries(b, term)
  {
    Seqs.FilterAppend(a, b, SearchFor(term));
  }

  /** Searching the search result again changes nothing. */
  lemma FilterIdempotent(entries: seq<JournalEntry>, term: string)
    ensures FilteredEntries(FilteredEntries(entries, term), term) == FilteredEntries(entries, term)
  {
    Seqs.FilterIdempotent(entries, SearchFor(term));
  }

  /** An empty search term keeps every entry. */
  lemma EmptyTermKeepsAll(entries: seq<JournalEntry>)
    ensures FilteredEntries(entries, "") == entries
  {
    forall e | e in entries
      ensures SearchFor("")(e)
    {
      Text.ContainsEmpty(Text.ToLower(e.text));
    }
    Seqs.FilterKeepsAll(entries, SearchFor(""));
  }

  /** What the list area shows. */
  datatype Pane = EmptyJournal | NoMatches | Results(items: seq<JournalEntry>)

  function HistoryPane(entries: seq<JournalEntry>, term: string): (p: Pane)
    ensures p == EmptyJournal <==> entries == []
    ensures p == NoMatches <==> entries != [] && FilteredEntries(entries, term) == []
    ensures p.Results? ==> p.items == FilteredEntries(entries, term) && p.items != []
  {
    if |entries| == 0 then EmptyJournal
    else
      var filtered := FilteredEntries(entries, term);
      if |filtered| == 0 then NoMatches else Results(filtered)
  }
}

=== FILE: journal.dfy ===
/**
 * The journal screen's own list logic: the `entries` state of the app, which holds
 * records with a numeric `id` and a `date` and is separate from the entry store.
 */
module Journal {
  import opened Prelude
  import Text
  import Seqs
  import opened Mood

  /** `'voice'` when dictated, `'text'` when typed. */
  datatype Source = Voice | Typed

  datatype JournalEntry = JournalEntry(id: int, text: string, mood: Mood, date: string, source: Source)

  /** The state `handleSave` reads and writes. */
  datatype Editor = Editor(entries: seq<JournalEntry>, text: string, isRecording: bool)

  /** `handleSave`: ignore blank text; otherwise prepend the new entry and clear the text. */
  function HandleSave(s: Editor, clock: Clock): (r: Editor)
    ensures Text.IsBlank(s.text) ==> r == s
    ensures !Text.IsBlank(s.text) ==>
      && |r.entries| == |s.entries| + 1
      && r.entries[1..] == s.entries
      && r.entries[0].id == clock.millis
      && r.entries[0].text == s.text
      && r.entries[0].mood == DetectMood(s.text)
      && r.entries[0].date == clock.iso
      && (r.entries[0].source == Voice <==> s.isRecording)
      && r.text == ""
      && r.isRecording == s.isRecording
  {
    Text.TrimEmptyIffBlank(s.text);
    if Text.Trim(s.text) == "" then s
    else
      var entry := JournalEntry(clock.millis, s.text, DetectMood(s.text), clock.iso,
                                if s.isRecording then Voice else Typed);
      s.(entries := [entry] + s.entries, text := "")
  }

  function IdIsNot(id: int): JournalEntry -> bool {
    (e: JournalEntry) => e.id != id
  }

  /** `entries.filter(entry => entry.id !== id)`. */
  function Without(entries: seq<JournalEntry>, id: int): (r: seq<JournalEntry>)
    ensures forall e :: e in r <==> e in entries && e.id != id
    ensures forall e :: multiset(r)[e] == if e.id != id then multiset(entries)[e] else 0
    ensures Seqs.IsSubsequence(r, entries)
  {
    Seqs.FilterSpec(entries, IdIsNot(id));
    Seqs.Filter(entries, IdIsNot(id))
  }

  /** `handleDelete(id)`, where `confirmed` is the answer to the confirmation dialog. */
  function HandleDelete(entries: seq<JournalEntry>, id: int, confirmed: bool): (r: seq<JournalEntry>)
    ensures !confirmed ==> r == entries
    ensures confirmed ==> forall e :: e in r ==> e.id != id
    ensures confirmed ==> forall e :: e in entries && e.id != id ==> e in r
    ensures confirmed ==> forall e :: multiset(r)[e] == if e.id != id then multiset(entries)[e] else 0
    ensures Seqs.IsSubsequence(r, entries)
  {
    if !confirmed then
      Seqs.SubsequenceRefl(entries);
      entries
    else Without(entries, id)
  }

  /** Deleting an id that no entry carries changes nothing. */
  lemma DeleteAbsentId(entries: seq<JournalEntry>, id: int)
    requires forall e :: e in entries ==> e.id != id
    ensures Without(entries, id) == entries
  {
    Seqs.FilterKeepsAll(entries, IdIsNot(id));
  }

  /** The insight request's batch: nothing for an empty journal, else the first ten entries. */
  function InsightBatch(entries: seq<JournalEntry>): (r: Option<seq<JournalEntry>>)
    ensures r.None? <==> entries == []
    ensures r.Some? ==> 1 <= |r.value| <= 10
    ensures r.Some? ==> |r.value| == 10 || r.value == entries
    ensures r.Some? ==> |r.value| <= |entries| && forall i :: 0 <= i < |r.value| ==> r.value[i] == entries[i]
  {
    if |entries| < 1 then None else Some(entries[..Min(10, |entries|)])
  }

  /** Saving an entry and then deleting it by its fresh id gives back the old list. */
  lemma {:induction false} DeleteUndoesSave(s: Editor, clock: Clock)
    requires !Text.IsBlank(s.text)
    requires forall e :: e in s.entries ==> e.id != clock.millis
    ensures HandleDelete(HandleSave(s, clock).entries, clock.millis, true) == s.entries
  {
    var r := HandleSave(s, clock);
    assert r.entries == [r.entries[0]] + s.entries;
    Seqs.FilterAppend([r.entries[0]], s.entries, IdIsNot(clock.millis));
    DeleteAbsentId(s.entries, clock.millis);
  }

  /** Putting an entry in front of a list puts it in front of the batch, before the nine newest older ones. */
  lemma {:induction false} BatchOfPrepended(e: JournalEntry, rest: seq<JournalEntry>)
    ensures InsightBatch([e] + rest) == Some([e] + rest[..Min(9, |rest|)])
  {
    var k := Min(9, |rest|);
    assert ([e] + rest)[..k + 1] == [e] + rest[..k];
  }

  /** After a save the insight batch starts with the new entry, followed by the nine newest older ones. */
  lemma {:induction false} SavedEntryHeadsBatch(s: Editor, clock: Clock)
    requires !Text.IsBlank(s.text)
    ensures var es := HandleSave(s, clock).entries;
      |es| > 0 && InsightBatch(es) == Some([es[0]] + s.entries[..Min(9, |s.entries|)])
  {
    var es := HandleSave(s, clock).entries;
    assert es == [es[0]] + s.entries;
    BatchOfPrepended(es[0], s.entries);
  }
}

=== FILE: json.dfy ===
/**
 * JSON values as the journal code sees them after `JSON.parse`, and the JavaScript
 * property reads and truthiness tests it performs on them. Numbers are integers:
 * every number the core compares is a millisecond clock reading or a count.
 */
module Json {
  import opened Prelude

  datatype Value =
    | Null
    | Bool(b: bool)
    | Num(n: int)
    | Str(s: string)
    | List(items: seq<Value>)
    | Object(fields: map<string, Value>)

  /** A journal entry: a plain object, so `{...a, ...b}` is the right-biased union `a + b`. */
  type Entry = map<string, Value>

  /** JavaScript `ToBoolean` on a JSON value. */
  predicate Truthy(v: Value) {
    match v
    case Null => false
    case Bool(b) => b
    case Num(n) => n != 0
    case Str(s) => s != ""
    case List(_) => true
    case Object(_) => true
  }

  /** `ToBoolean` on a property read, where `None` is `undefined`. */
  predicate Present(o: Option<Value>) {
    o.Some? && Truthy(o.value)
  }

  /**
   * `v.key` for a value that is not `null` (reading a property of `null` throws, and the
   * callers model that branch themselves). Only objects carry the keys the core reads;
   * on any other value the read is `undefined`. (On an array, `.entries` is a prototype
   * method, a truthy non-array: every check the core makes treats it like `undefined`.)
   */
  function Get(v: Value, key: string): (r: Option<Value>)
    requires !v.Null?
    ensures r.Some? <==> v.Object? && key in v.fields
    ensures r.Some? ==> r.value == v.fields[key]
  {
    if v.Object? && key in v.fields then Some(v.fields[key]) else None
  }

  /** `entry.key` on an entry object. */
  function Field(e: Entry, key: string): (r: Option<Value>)
    ensures r.Some? <==> key in e
    ensures r.Some? ==> r.value == e[key]
  {
    if key in e then Some(e[key]) else None
  }

  /** `entry.id`; an entry without an `id` reads as `undefined`. */
  function IdOf(e: Entry): Option<Value> {
    Field(e, "id")
  }

  /**
   * An id that `===` and SameValueZero compare by value: `undefined` or a primitive.
   * Objects and arrays compare by reference, and every read of the journal or of an
   * import file parses fresh ones, so such an id never equals any other.
   */
  predicate ByValue(id: Option<Value>) {
    id.None? || !(id.value.List? || id.value.Object?)
  }

  /** `a === b` on ids read from freshly parsed values. */
  predicate SameId(a: Option<Value>, b: Option<Value>) {
    a == b && ByValue(a)
  }

  /**
   * `ToString(v)` throws a `TypeError`. On an object with an own `toString` key it does:
   * that key's value is never callable, and the inherited `valueOf` returns the object
   * itself, so no primitive is found. An array is joined, so it throws when one of its
   * elements does. `ToPrimitive` without a hint (as in `new Date(v)`) tries the same two
   * methods in the other order, so it throws on exactly the same values.
   */
  predicate ThrowsOnString(v: Value)
    decreases v
  {
    match v
    case Object(fields) => "toString" in fields
    case List(items) => exists i :: 0 <= i < |items| && ThrowsOnString(items[i])
    case _ => false
  }
}

=== FILE: localstorage.dfy ===
/**
 * The browser's `localStorage`: a flat string-to-string mapping, kept as the
 * sequence of its (key, value) pairs in enumeration order. `capacity` is the
 * browser's own quota in bytes at two bytes per UTF-16 code unit, and `available` is false
 * when the environment refuses access (every call then throws).
 */
module LocalStorage {
  import opened Prelude

  datatype Storage = Storage(items: seq<(string, string)>, capacity: nat, available: bool)

  /** What `setItem` / `removeItem` throw. */
  datatype StorageError = QuotaExceededError | SecurityError

  /** `getItem(key)`: the stored string, or `None` (null) for an absent key. */
  function Lookup(items: seq<(string, string)>, key: string): (r: Option<string>)
    ensures r.None? <==> forall i :: 0 <= i < |items| ==> items[i].0 != key
    ensures r.Some? ==> exists i :: 0 <= i < |items| && items[i] == (key, r.value)
  {
    if items == [] then None
    else if items[0].0 == key then Some(items[0].1)
    else
      var r := Lookup(items[1..], key);
      assert forall i :: 0 < i < |items| ==> items[i] == items[1..][i - 1];
      r
  }

  /** No key is held twice. */
  predicate KeysUnique(items: seq<(string, string)>) {
    items == [] || (Lookup(items[1..], items[0].0).None? && KeysUnique(items[1..]))
  }

  /**
   * A string's JavaScript `length`: its UTF-16 code units. A code point beyond the
   * Basic Multilingual Plane takes a surrogate pair, every other one a single unit.
   */
  function Units(s: string): (r: nat)
    ensures |s| <= r <= 2 * |s|
  {
    if s == [] then 0 else (if s[0] as int > 0xFFFF then 2 else 1) + Units(s[1..])
  }

  /** Within the Basic Multilingual Plane, `length` is the number of characters. */
  lemma {:induction false} UnitsInPlane(s: string)
    requires forall i :: 0 <= i < |s| ==> s[i] as int <= 0xFFFF
    ensures Units(s) == |s|
    decreases |s|
  {
    if s != [] {
      assert forall i :: 0 <= i < |s[1..]| ==> s[1..][i] == s[i + 1];
      UnitsInPlane(s[1..]);
    }
  }

  /** An emoji such as U+1F600 is two code units long. */
  lemma EmojiIsSurrogatePair()
    ensures Units("\U{1F600}") == 2
    ensures Units("a\U{1F600}") == 3
  {
    assert "a\U{1F600}"[1..] == "\U{1F600}";
  }

  /** Code units held by the mapping, keys and values alike. */
  function Chars(items: seq<(string, string)>): (r: nat)
    ensures items == [] ==> r == 0
  {
    if items == [] then 0 else Units(items[0].0) + Units(items[0].1) + Chars(items[1..])
  }

  /** The pairs after writing `value` under `key`: replaced in place, or appended. */
  function Put(items: seq<(string, string)>, key: string, value: string): (r: seq<(string, string)>)
    requires KeysUnique(items)
    ensures KeysUnique(r)
    ensures Lookup(r, key) == Some(value)
    ensures forall k :: k != key ==> Lookup(r, k) == Lookup(items, k)
  {
    if items == [] then [(key, value)]
    else if items[0].0 == key then [(key, value)] + items[1..]
    else
      var rest := Put(items[1..], key, value);
      var r := [items[0]] + rest;
      assert r[1..] == rest;
      r
  }

  /** Writing a key changes the code-unit count by the old and new value lengths. */
  lemma {:induction false} PutChars(items: seq<(string, string)>, key: string, value: string)
    requires KeysUnique(items)
    ensures Lookup(items, key).None? ==>
      Chars(Put(items, key, value)) == Chars(items) + Units(key) + Units(value)
    ensures Lookup(items, key).Some? ==>
      Chars(Put(items, key, value)) == Chars(items) - Units(Lookup(items, key).value) + Units(value)
    decreases |items|
  {
    if items != [] && items[0].0 != key {
      PutChars(items[1..], key, value);
      var r := Put(items, key, value);
      assert r[1..] == Put(items[1..], key, value);
    }
  }

  /** The pairs after removing `key`. */
  function Delete(items: seq<(string, string)>, key: string): (r: seq<(string, string)>)
    requires KeysUnique(items)
    ensures KeysUnique(r)
    ensures Lookup(r, key).None?
    ensures forall k :: k != key ==> Lookup(r, k) == Lookup(items, k)
  {
    if items == [] then []
    else if items[0].0 == key then items[1..]
    else
      var rest := Delete(items[1..], key);
      var r := [items[0]] + rest;
      assert r[1..] == rest;
      r
  }

  predicate Valid(st: Storage) {
    KeysUnique(st.items)
  }

  function GetItem(st: Storage, key: string): Option<string> {
    Lookup(st.items, key)
  }

  /**
   * `setItem(key, value)`: throws `SecurityError` when storage is inaccessible and
   * `QuotaExceededError` when the mapping would outgrow the browser's capacity.
   */
  function SetItem(st: Storage, key: string, value: string): (r: Result<Storage, StorageError>)
    requires Valid(st)
    ensures !st.available ==> r == Err(SecurityError)
    ensures r.Ok? ==> Valid(r.value) && r.value.capacity == st.capacity && r.value.available
    ensures r.Ok? ==> GetItem(r.value, key) == Some(value)
    ensures r.Ok? ==> forall k :: k != key ==> GetItem(r.value, k) == GetItem(st, k)
    ensures r.Ok? ==> 2 * Chars(r.value.items) <= st.capacity
    ensures st.available && 2 * Chars(Put(st.items, key, value)) > st.capacity ==>
      r == Err(QuotaExceededError)
    ensures st.available && 2 * Chars(Put(st.items, key, value)) <= st.capacity ==> r.Ok?
  {
    if !st.available then Err(SecurityError)
    else
      var items := Put(st.items, key, value);
      if 2 * Chars(items) > st.capacity then Err(QuotaExceededError)
      else Ok(st.(items := items))
  }

  /** `removeItem(key)`: throws `SecurityError` when storage is inaccessible. */
  function RemoveItem(st: Storage, key: string): (r: Result<Storage, StorageError>)
    requires Valid(st)
    ensures r.Err? <==> !st.available
    ensures r.Ok? ==> Valid(r.value) && GetItem(r.value, key).None?
    ensures r.Ok? ==> forall k :: k != key ==> GetItem(r.value, k) == GetItem(st, k)
    ensures r.Ok? ==> r.value.capacity == st.capacity && r.value.available
  {
    if !st.available then Err(SecurityError)
    else Ok(st.(items := Delete(st.items, key)))
  }
}

=== FILE: mood.dfy ===
/**
 * `detectMood`: a keyword classifier over the lowercased text in which the difficult
 * keywords take priority over the positive ones.
 */
module Mood {
  import Text

  datatype Mood = Positive | Reflective | Neutral

  const NegativeWords: seq<string> := ["sad", "anxious", "tired", "hurt", "bad", "stress", "difficult"]
  const PositiveWords: seq<string> := ["happy", "great", "good", "excited", "love", "joy", "wonderful"]

  /** Some word of the list occurs in `text`. */
  ghost predicate Mentions(text: string, words: seq<string>) {
    exists i :: 0 <= i < |words| && Text.Contains(text, words[i])
  }

  /** `words.some(w => text.includes(w))`. */
  function AnyOccurs(words: seq<string>, text: string): (r: bool)
    ensures r <==> Mentions(text, words)
  {
    if words == [] then false
    else
      var rest := AnyOccurs(words[1..], text);
      assert forall i :: 0 < i < |words| ==> words[i] == words[1..][i - 1];
      Text.Contains(text, words[0]) || rest
  }

  function DetectMood(txt: string): (m: Mood)
    ensures m == Reflective <==> Mentions(Text.ToLower(txt), NegativeWords)
    ensures m == Positive <==>
      !Mentions(Text.ToLower(txt), NegativeWords) && Mentions(Text.ToLower(txt), PositiveWords)
    ensures m == Neutral <==>
      !Mentions(Text.ToLower(txt), NegativeWords) && !Mentions(Text.ToLower(txt), PositiveWords)
  {
    var lower := Text.ToLower(txt);
    if AnyOccurs(NegativeWords, lower) then Reflective
    else if AnyOccurs(PositiveWords, lower) then Positive
    else Neutral
  }

  /** The mood depends on the text only through its lowercase form. */
  lemma MoodIgnoresCase(a: string, b: string)
    requires Text.ToLower(a) == Text.ToLower(b)
    ensures DetectMood(a) == DetectMood(b)
  {
  }

  /** Lowering the text first does not change its mood. */
  lemma MoodOfLowered(txt: string)
    ensures DetectMood(Text.ToLower(txt)) == DetectMood(txt)
  {
    Text.ToLowerIdempotent(txt);
  }

  /** A difficult keyword wins even when a positive one is present. */
  lemma NegativePriority(txt: string)
    requires Mentions(Text.ToLower(txt), NegativeWords)
    ensures DetectMood(txt) == Reflective
  {
  }
}

=== FILE: prelude.dfy ===
/** Failure-compatible wrappers shared by every module of the model. */
module Prelude {

  /** A value that may be missing; in JavaScript terms `None` is `undefined`. */
  datatype Option<+T> = None | Some(value: T)

  /** The outcome of an operation that either returns a value or throws. */
  datatype Result<+T, +E> = Ok(value: T) | Err(error: E)

  /** The clock: `Date.now()` and `new Date().toISOString()`, read at the same instant. */
  datatype Clock = Clock(millis: nat, iso: string)

  function Min(a: int, b: int): (r: int)
    ensures r <= a && r <= b
    ensures r == a || r == b
  {
    if a <= b then a else b
  }
}

=== FILE: quota.dfy ===
/**
 * The quota monitor: an estimate of what `localStorage` holds, at two bytes per
 * UTF-16 code unit, classified against fixed warning and critical thresholds.
 */
module Quota {
  import opened LocalStorage

  /** 4 MiB. */
  const WarningThreshold: nat := 4 * 1024 * 1024
  /** 4.5 MiB, an integer number of bytes. */
  const CriticalThreshold: nat := 4718592

  datatype QuotaStatus = QuotaStatus(size: nat, isWarning: bool, isCritical: bool)

  /** `getStorageSize()`: every key and every value, two bytes per code unit of its `length`. */
  function StorageSize(st: Storage): (r: nat)
    ensures r % 2 == 0
  {
    2 * Chars(st.items)
  }

  /** The code-unit count is a sum over the pairs: it splits over concatenation. */
  lemma {:induction false} CharsAppend(a: seq<(string, string)>, b: seq<(string, string)>)
    ensures Chars(a + b) == Chars(a) + Chars(b)
    decreases |a|
  {
    if a != [] {
      CharsAppend(a[1..], b);
      assert (a + b)[1..] == a[1..] + b;
    } else {
      assert a + b == b;
    }
  }

  /** Each stored pair contributes its key and value to the size. */
  lemma {:induction false} PairCounted(items: seq<(string, string)>, i: nat)
    requires i < |items|
    ensures 2 * (Units(items[i].0) + Units(items[i].1)) <= 2 * Chars(items)
  {
    CharsAppend(items[..i], items[i..]);
    assert items == items[..i] + items[i..];
    assert items[i..][1..] == items[i + 1..];
  }

  /** A successful `setItem` moves the size by twice the change in code units. */
  lemma SizeAfterSetItem(st: Storage, key: string, value: string)
    requires Valid(st)
    requires SetItem(st, key, value).Ok?
    ensures GetItem(st, key).None? ==>
      StorageSize(SetItem(st, key, value).value) == StorageSize(st) + 2 * (Units(key) + Units(value))
    ensures GetItem(st, key).Some? ==>
      StorageSize(SetItem(st, key, value).value)
        == StorageSize(st) - 2 * Units(GetItem(st, key).value) + 2 * Units(value)
  {
    PutChars(st.items, key, value);
  }

  /** `checkStorageQuota()`, without the float percentage and the formatted size. */
  function CheckStorageQuota(st: Storage): (r: QuotaStatus)
    ensures r.size == StorageSize(st)
    ensures r.isWarning <==> r.size > 4194304
    ensures r.isCritical <==> r.size > 4718592
    ensures r.isCritical ==> r.isWarning
  {
    var size := StorageSize(st);
    QuotaStatus(size, size > WarningThreshold, size > CriticalThreshold)
  }
}

=== FILE: ratelimit.dfy ===
/**
 * The proxy server's per-IP sliding-window rate limiter: each IP keeps the times of
 * its accepted requests; a request is refused while ten of them lie within the hour.
 */
module RateLimit {
  import Seqs

  /** Requests per window. */
  const Limit: nat := 10
  /** One hour, in milliseconds. */
  const Window: int := 3600000

  /** `requestCounts`: for each IP, the times of its accepted requests. */
  type Limiter = map<string, seq<int>>

  function Times(l: Limiter, ip: string): seq<int> {
    if ip in l then l[ip] else []
  }

  function InWindow(now: int): int -> bool {
    (t: int) => now - t < Window
  }

  /** `userRequests.filter(time => now - time < RATE_WINDOW)`. */
  function Prune(times: seq<int>, now: int): (r: seq<int>)
    ensures forall t :: t in r <==> t in times && now - t < Window
    ensures forall t :: multiset(r)[t] == if now - t < Window then multiset(times)[t] else 0
    ensures Seqs.IsSubsequence(r, times)
  {
    Seqs.FilterSpec(times, InWindow(now));
    Seqs.Filter(times, InWindow(now))
  }

  datatype Check = Check(accepted: bool, limiter: Limiter)

  /** `checkRateLimit(ip)` at time `now`. */
  function CheckRateLimit(l: Limiter, ip: string, now: int): (r: Check)
    ensures r.accepted <==> |Prune(Times(l, ip), now)| < 10
    ensures !r.accepted ==> r.limiter == l
    ensures r.accepted ==> ip in r.limiter && r.limiter[ip] == Prune(Times(l, ip), now) + [now]
    ensures forall other :: other != ip ==>
      (other in r.limiter <==> other in l) && Times(r.limiter, other) == Times(l, other)
  {
    var recent := Prune(Times(l, ip), now);
    if |recent| >= Limit then Check(false, l)
    else Check(true, l[ip := recent + [now]])
  }

  /** No IP ever holds more than ten times. */
  ghost predicate Bounded(l: Limiter) {
    forall ip :: ip in l ==> |l[ip]| <= 10
  }

  lemma CheckKeepsBounded(l: Limiter, ip: string, now: int)
    requires Bounded(l)
    ensures Bounded(CheckRateLimit(l, ip, now).limiter)
  {
  }

  datatype Call = Call(ip: string, now: int)

  /** Clock readings never go backwards. */
  ghost predicate Chronological(calls: seq<Call>) {
    forall i, j :: 0 <= i < j < |calls| ==> calls[i].now <= calls[j].now
  }

  /** The limiter after a run of calls from server start. */
  function Run(calls: seq<Call>): Limiter
    decreases |calls|
  {
    if calls == [] then map[]
    else
      var c := calls[|calls| - 1];
      CheckRateLimit(Run(calls[..|calls| - 1]), c.ip, c.now).limiter
  }

  /** The times of the calls from `ip` the limiter accepted, in order. */
  function AcceptedTimes(calls: seq<Call>, ip: string): seq<int>
    decreases |calls|
  {
    if calls == [] then []
    else
      var prev := calls[..|calls| - 1];
      var c := calls[|calls| - 1];
      AcceptedTimes(prev, ip)
        + (if c.ip == ip && CheckRateLimit(Run(prev), c.ip, c.now).accepted then [c.now] else [])
  }

  /** Every list the server keeps has at most ten times. */
  lemma {:induction false} RunBounded(calls: seq<Call>)
    ensures Bounded(Run(calls))
    decreases |calls|
  {
    if calls != [] {
      var c := calls[|calls| - 1];
      RunBounded(calls[..|calls| - 1]);
      CheckKeepsBounded(Run(calls[..|calls| - 1]), c.ip, c.now);
    }
  }

  /**
   * From the latest clock reading on, the stored list and the accepted times of an IP
   * agree on every window.
   */
  lemma {:induction false} StoredMatchesAccepted(calls: seq<Call>, ip: string)
    requires Chronological(calls)
    ensures forall t :: (calls == [] || calls[|calls| - 1].now <= t) ==>
      Prune(Times(Run(calls), ip), t) == Prune(AcceptedTimes(calls, ip), t)
    decreases |calls|
  {
    if calls != [] {
      var prev := calls[..|calls| - 1];
      var c := calls[|calls| - 1];
      assert Chronological(prev);
      StoredMatchesAccepted(prev, ip);
      var chk := CheckRateLimit(Run(prev), c.ip, c.now);
      var stored := Times(Run(prev), ip);
      var acc := AcceptedTimes(prev, ip);
      forall t | c.now <= t
        ensures Prune(Times(Run(calls), ip), t) == Prune(AcceptedTimes(calls, ip), t)
      {
        assert prev == [] || prev[|prev| - 1].now <= t;
        if c.ip == ip && chk.accepted {
          assert Times(Run(calls), ip) == Prune(stored, c.now) + [c.now];
          calc {
            Prune(Prune(stored, c.now) + [c.now], t);
          == { Seqs.FilterAppend(Prune(stored, c.now), [c.now], InWindow(t)); }
            Prune(Prune(stored, c.now), t) + Prune([c.now], t);
          == { Seqs.FilterNarrow(stored, InWindow(c.now), InWindow(t)); }
            Prune(stored, t) + Prune([c.now], t);
          == { assert Prune(stored, t) == Prune(acc, t); }
            Prune(acc, t) + Prune([c.now], t);
          == { Seqs.FilterAppend(acc, [c.now], InWindow(t)); }
            Prune(acc + [c.now], t);
          }
        } else {
          assert AcceptedTimes(calls, ip) == acc + [];
          assert acc + [] == acc;
        }
      }
    }
  }

  function Between(lo: int, hi: int): int -> bool {
    (t: int) => lo <= t < hi
  }

  /** How many of `times` fall in `[lo, hi)`. */
  function CountBetween(times: seq<int>, lo: int, hi: int): nat {
    |Seqs.Filter(times, Between(lo, hi))|
  }

  /**
   * The limiter's guarantee: with a clock that never goes backwards, no IP has more
   * than ten requests accepted in any window of one hour.
   */
  lemma {:induction false} AtMostLimitPerWindow(calls: seq<Call>, ip: string, lo: int)
    requires Chronological(calls)
    ensures CountBetween(AcceptedTimes(calls, ip), lo, lo + Window) <= 10
    decreases |calls|
  {
    if calls != [] {
      var prev := calls[..|calls| - 1];
      var c := calls[|calls| - 1];
      assert Chronological(prev);
      AtMostLimitPerWindow(prev, ip, lo);
      var acc := AcceptedTimes(prev, ip);
      var chk := CheckRateLimit(Run(prev), c.ip, c.now);
      if c.ip == ip && chk.accepted {
        Seqs.FilterAppend(acc, [c.now], Between(lo, lo + Window));
        if lo <= c.now < lo + Window {
          StoredMatchesAccepted(prev, ip);
          assert prev == [] || prev[|prev| - 1].now <= c.now;
          assert |Prune(acc, c.now)| < 10;
          Seqs.FilterMonotone(acc, Between(lo, lo + Window), InWindow(c.now));
        }
      } else {
        assert AcceptedTimes(calls, ip) == acc + [];
        assert acc + [] == acc;
      }
    }
  }
}

=== FILE: seqs.dfy ===
/** Sequence facts shared by the filters of the model. */
module Seqs {

  /** `a` is obtained from `b` by deleting elements, the rest kept in order. */
  predicate IsSubsequence<T(==)>(a: seq<T>, b: seq<T>)
    decreases |b|
  {
    || a == []
    || (&& b != []
        && ((a[0] == b[0] && IsSubsequence(a[1..], b[1..])) || IsSubsequence(a, b[1..])))
  }

  lemma {:induction false} SubsequenceLength<T>(a: seq<T>, b: seq<T>)
    requires IsSubsequence(a, b)
    ensures |a| <= |b|
    decreases |b|
  {
    if a != [] {
      if a[0] == b[0] && IsSubsequence(a[1..], b[1..]) {
        SubsequenceLength(a[1..], b[1..]);
      } else {
        SubsequenceLength(a, b[1..]);
      }
    }
  }

  lemma {:induction false} SubsequenceRefl<T>(a: seq<T>)
    ensures IsSubsequence(a, a)
    decreases |a|
  {
    if a != [] {
      SubsequenceRefl(a[1..]);
    }
  }

  lemma {:induction false} SubsequenceMembers<T>(a: seq<T>, b: seq<T>, x: T)
    requires IsSubsequence(a, b)
    requires x in a
    ensures x in b
    decreases |b|
  {
    if a[0] == b[0] && IsSubsequence(a[1..], b[1..]) {
      if x != a[0] {
        assert x in a[1..];
        SubsequenceMembers(a[1..], b[1..], x);
      }
    } else {
      SubsequenceMembers(a, b[1..], x);
    }
  }

  /** `s.filter(keep)`: the elements `keep` accepts, in their original order. */
  function Filter<T>(s: seq<T>, keep: T -> bool): (r: seq<T>)
    ensures |r| <= |s|
  {
    if s == [] then []
    else if keep(s[0]) then [s[0]] + Filter(s[1..], keep)
    else Filter(s[1..], keep)
  }

  /**
   * What the filter keeps: every accepted element as often as it occurs and no other,
   * in order, and all of them iff its length is unchanged.
   */
  lemma {:induction false} FilterSpec<T>(s: seq<T>, keep: T -> bool)
    ensures forall x :: x in Filter(s, keep) <==> x in s && keep(x)
    ensures forall x :: multiset(Filter(s, keep))[x] == if keep(x) then multiset(s)[x] else 0
    ensures IsSubsequence(Filter(s, keep), s)
    ensures |Filter(s, keep)| == |s| <==> forall x :: x in s ==> keep(x)
    decreases |s|
  {
    FilterCounts(s, keep);
    if s != [] {
      FilterSpec(s[1..], keep);
      var rest := Filter(s[1..], keep);
      assert forall x :: x in s <==> x == s[0] || x in s[1..];
      if keep(s[0]) {
        assert ([s[0]] + rest)[1..] == rest;
      } else if forall x :: x in s ==> keep(x) {
        assert false;
      }
    }
  }

  /** The filter keeps each accepted element as many times as it occurs. */
  lemma {:induction false} FilterCounts<T>(s: seq<T>, keep: T -> bool)
    ensures forall x :: multiset(Filter(s, keep))[x] == if keep(x) then multiset(s)[x] else 0
    decreases |s|
  {
    if s != [] {
      FilterCounts(s[1..], keep);
      assert s == [s[0]] + s[1..];
      assert multiset(s) == multiset{s[0]} + multiset(s[1..]);
      if keep(s[0]) {
        assert multiset([s[0]] + Filter(s[1..], keep)) == multiset{s[0]} + multiset(Filter(s[1..], keep));
      }
    }
  }

  /** The filter acts element by element: it splits over concatenation. */
  lemma {:induction false} FilterAppend<T>(a: seq<T>, b: seq<T>, keep: T -> bool)
    ensures Filter(a + b, keep) == Filter(a, keep) + Filter(b, keep)
    decreases |a|
  {
    if a == [] {
      assert a + b == b;
    } else {
      FilterAppend(a[1..], b, keep);
      assert (a + b)[1..] == a[1..] + b;
      assert (a + b)[0] == a[0];
    }
  }

  /** Filtering a filtered sequence again changes nothing. */
  lemma {:induction false} FilterIdempotent<T>(s: seq<T>, keep: T -> bool)
    ensures Filter(Filter(s, keep), keep) == Filter(s, keep)
    decreases |s|
  {
    if s != [] {
      FilterIdempotent(s[1..], keep);
      var rest := Filter(s[1..], keep);
      if keep(s[0]) {
        assert ([s[0]] + rest)[1..] == rest;
      }
    }
  }

  /** A filter that accepts every element is the identity. */
  lemma {:induction false} FilterKeepsAll<T>(s: seq<T>, keep: T -> bool)
    requires forall x :: x in s ==> keep(x)
    ensures Filter(s, keep) == s
    decreases |s|
  {
    if s != [] {
      assert forall x :: x in s[1..] ==> x in s;
      FilterKeepsAll(s[1..], keep);
    }
  }

  /** Filtering by a weaker test first, then by a stronger one, is filtering by the stronger. */
  lemma {:induction false} FilterNarrow<T>(s: seq<T>, weak: T -> bool, strong: T -> bool)
    requires forall x :: strong(x) ==> weak(x)
    ensures Filter(Filter(s, weak), strong) == Filter(s, strong)
    decreases |s|
  {
    if s != [] {
      FilterNarrow(s[1..], weak, strong);
      var rest := Filter(s[1..], weak);
      if weak(s[0]) {
        assert ([s[0]] + rest)[1..] == rest;
      }
    }
  }

  /** A more permissive test keeps at least as many elements. */
  lemma {:induction false} FilterMonotone<T>(s: seq<T>, p: T -> bool, q: T -> bool)
    requires forall x :: p(x) ==> q(x)
    ensures |Filter(s, p)| <= |Filter(s, q)|
    decreases |s|
  {
    if s != [] {
      FilterMonotone(s[1..], p, q);
    }
  }
}


=== FILE: server.dfy ===
/**
 * The proxy server's `POST /api/insights` handler: rate limit first, then the body
 * check, then the prompt from the first seven entries, then the upstream call.
 */
module InsightsServer {
  import opened Prelude
  import opened Json
  import opened RateLimit

  /** The fewest entries a request must carry. */
  const MinEntries: nat := 3
  /** The most entries the prompt uses. */
  const PromptEntries: nat := 7

  const RateLimitedMessage: string := "Rate limit exceeded. Please try again later."
  const InvalidRequestMessage: string := "Invalid request. At least 3 entries required."
  const ConfigurationMessage: string := "Server configuration error"
  const UpstreamMessage: string := "Failed to generate insights. Please try again."
  const UnexpectedMessage: string := "An unexpected error occurred. Please try again later."

  /** One prompt line: `Entry <number> (<date>): <text>`, date formatting aside. */
  datatype PromptItem = PromptItem(number: nat, date: Option<Value>, text: Option<Value>)

  /**
   * What the upstream model API did: answered with a JSON body, answered with a
   * non-ok status whose JSON body parsed, or failed (a rejected fetch or a body that
   * would not parse).
   */
  datatype Upstream = Answered(data: Value) | Refused(status: int) | Failed

  datatype ReplyBody = ErrorText(text: string) | Forward(data: Value)
  datatype Reply = Reply(status: int, body: ReplyBody)

  /** The limiter afterwards, the reply, and the prompt sent upstream (if any was). */
  datatype Handled = Handled(limiter: Limiter, reply: Reply, prompt: Option<seq<PromptItem>>)

  /** `entries` of the body when it is an array of at least three elements. */
  function ValidEntries(body: Value): (r: Option<seq<Value>>)
    requires !body.Null?
    ensures r.Some? <==> exists items :: Get(body, "entries") == Some(List(items)) && |items| >= 3
    ensures r.Some? ==> Get(body, "entries") == Some(List(r.value))
  {
    match Get(body, "entries")
    case Some(List(items)) => if |items| < MinEntries then None else Some(items)
    case _ => None
  }

  /** `e[key]` is present and turning it into a string throws. */
  predicate FieldThrows(e: Value, key: string)
    requires !e.Null?
  {
    Get(e, key).Some? && ThrowsOnString(Get(e, key).value)
  }

  /**
   * Rendering `Entry n (${new Date(e.date)...}): ${e.text}` throws: reading a property
   * of `null`, or a `date` or `text` that no `ToPrimitive` can turn into a string.
   */
  predicate LineThrows(e: Value) {
    e.Null? || FieldThrows(e, "date") || FieldThrows(e, "text")
  }

  /** `recentEntries.map((e, i) => ...)`: numbered from one; a line that throws fails the whole prompt. */
  function PromptItems(recent: seq<Value>): (r: Option<seq<PromptItem>>)
    ensures r.None? <==> exists i :: 0 <= i < |recent| && LineThrows(recent[i])
    ensures r.Some? ==> |r.value| == |recent|
    ensures r.Some? ==> forall i :: 0 <= i < |recent| ==>
      && r.value[i].number == i + 1
      && r.value[i].date == Get(recent[i], "date")
      && r.value[i].text == Get(recent[i], "text")
  {
    if exists i :: 0 <= i < |recent| && LineThrows(recent[i]) then None
    else Some(seq(|recent|, i requires 0 <= i < |recent| =>
      PromptItem(i + 1, Get(recent[i], "date"), Get(recent[i], "text"))))
  }

  /** The prompt from the first seven entries of an accepted body. */
  function RecentPrompt(items: seq<Value>): (r: Option<seq<PromptItem>>)
    ensures r.None? <==> exists i :: 0 <= i < Min(7, |items|) && LineThrows(items[i])
    ensures r.Some? ==> |r.value| == Min(7, |items|)
    ensures r.Some? ==> forall i :: 0 <= i < |r.value| ==>
      !LineThrows(items[i]) && r.value[i] == PromptItem(i + 1, Get(items[i], "date"), Get(items[i], "text"))
  {
    var recent := items[..Min(PromptEntries, |items|)];
    assert forall i :: 0 <= i < |recent| ==> recent[i] == items[i];
    PromptItems(recent)
  }

  /** The handler, for a request from `ip` at `now` with the parsed JSON `body`. */
  function HandleInsights(l: Limiter, ip: string, now: int, body: Value, apiKeySet: bool, upstream: Upstream)
    : (r: Handled)
    ensures r.limiter == CheckRateLimit(l, ip, now).limiter
    ensures !CheckRateLimit(l, ip, now).accepted <==> r.reply == Reply(429, ErrorText(RateLimitedMessage))
    ensures !CheckRateLimit(l, ip, now).accepted ==> r.limiter == l && r.prompt.None?
    ensures CheckRateLimit(l, ip, now).accepted && !body.Null? && ValidEntries(body).None? ==>
      r.reply == Reply(400, ErrorText(InvalidRequestMessage)) && r.prompt.None?
    ensures r.prompt.Some? ==>
      && CheckRateLimit(l, ip, now).accepted && !body.Null? && ValidEntries(body).Some? && apiKeySet
      && r.prompt == RecentPrompt(ValidEntries(body).value)
    ensures (&& CheckRateLimit(l, ip, now).accepted && !body.Null? && ValidEntries(body).Some? && apiKeySet
             && RecentPrompt(ValidEntries(body).value).Some?) ==>
      r.prompt == RecentPrompt(ValidEntries(body).value)
    ensures CheckRateLimit(l, ip, now).accepted && body.Null? ==>
      r.reply == Reply(500, ErrorText(UnexpectedMessage)) && r.prompt.None?
    ensures CheckRateLimit(l, ip, now).accepted && !body.Null? && ValidEntries(body).Some? && !apiKeySet ==>
      r.reply == Reply(500, ErrorText(ConfigurationMessage)) && r.prompt.None?
    ensures (&& CheckRateLimit(l, ip, now).accepted && !body.Null? && ValidEntries(body).Some? && apiKeySet
             && RecentPrompt(ValidEntries(body).value).None?) ==>
      r.reply == Reply(500, ErrorText(UnexpectedMessage)) && r.prompt.None?
    ensures r.prompt.Some? && upstream.Answered? ==> r.reply == Reply(200, Forward(upstream.data))
    ensures r.prompt.Some? && upstream.Refused? ==> r.reply == Reply(upstream.status, ErrorText(UpstreamMessage))
    ensures r.prompt.Some? && upstream.Failed? ==> r.reply == Reply(500, ErrorText(UnexpectedMessage))
  {
    var chk := CheckRateLimit(l, ip, now);
    if !chk.accepted then Handled(chk.limiter, Reply(429, ErrorText(RateLimitedMessage)), None)
    // Destructuring `null` throws inside the handler's try block.
    else if body.Null? then Handled(chk.limiter, Reply(500, ErrorText(UnexpectedMessage)), None)
    else match ValidEntries(body)
      case None => Handled(chk.limiter, Reply(400, ErrorText(InvalidRequestMessage)), None)
      case Some(items) =>
        if !apiKeySet then Handled(chk.limiter, Reply(500, ErrorText(ConfigurationMessage)), None)
        else match RecentPrompt(items)
          case None => Handled(chk.limiter, Reply(500, ErrorText(UnexpectedMessage)), None)
          case Some(prompt) =>
            var reply := match upstream
              case Answered(data) => Reply(200, Forward(data))
              case Refused(status) => Reply(status, ErrorText(UpstreamMessage))
              case Failed => Reply(500, ErrorText(UnexpectedMessage));
            Handled(chk.limiter, reply, Some(prompt))
  }

  /**
   * The rate limit is charged before the body is looked at: a request with any body
   * leaves the limiter exactly as a request with any other body would.
   */
  lemma LimiterIgnoresBody(l: Limiter, ip: string, now: int, b1: Value, b2: Value,
                           key1: bool, key2: bool, up1: Upstream, up2: Upstream)
    ensures HandleInsights(l, ip, now, b1, key1, up1).limiter
         == HandleInsights(l, ip, now, b2, key2, up2).limiter
  {
  }

  /** A rejected body still uses up one of the IP's slots. */
  lemma InvalidBodyUsesSlot(l: Limiter, ip: string, now: int, body: Value, key: bool, up: Upstream)
    requires CheckRateLimit(l, ip, now).accepted
    requires !body.Null? && ValidEntries(body).None?
    ensures var r := HandleInsights(l, ip, now, body, key, up);
      && r.reply.status == 400
      && r.prompt.None?
      && Times(r.limiter, ip) == Prune(Times(l, ip), now) + [now]
  {
  }

  /**
   * The browser client posts `{entry: <text>}`, which has no `entries` array: the
   * handler answers it with 400, or with 429 when the IP is over its limit.
   */
  lemma ClientBodyRejected(l: Limiter, ip: string, now: int, text: string, key: bool, up: Upstream)
    ensures var r := HandleInsights(l, ip, now, Object(map["entry" := Str(text)]), key, up);
      r.reply.status == 400 || r.reply.status == 429
    ensures HandleInsights(l, ip, now, Object(map["entry" := Str(text)]), key, up).prompt.None?
  {
    assert Get(Object(map["entry" := Str(text)]), "entries").None?;
  }

  /**
   * An entry whose `text` is an object with its own `toString` key makes the prompt
   * template throw: an admitted request with the key set gets the catch-all 500 and
   * never reaches upstream.
   */
  lemma ToStringKeyFailsPrompt(l: Limiter, ip: string, now: int, up: Upstream)
    requires CheckRateLimit(l, ip, now).accepted
    ensures var first := Object(map["text" := Object(map["toString" := Num(1)])]);
      var body := Object(map["entries" := List([first, Object(map[]), Object(map[])])]);
      var r := HandleInsights(l, ip, now, body, true, up);
      r.reply == Reply(500, ErrorText(UnexpectedMessage)) && r.prompt.None?
  {
    var first := Object(map["text" := Object(map["toString" := Num(1)])]);
    var items := [first, Object(map[]), Object(map[])];
    assert ThrowsOnString(Object(map["toString" := Num(1)]));
    assert LineThrows(items[0]);
    assert ValidEntries(Object(map["entries" := List(items)])) == Some(items);
  }
}

=== FILE: storagewarning.dfy ===
/**
 * The storage-warning banner: a two-field state machine over the latest quota
 * status and whether the user dismissed the warning.
 */
module StorageWarning {
  import opened Prelude
  import opened Quota

  /** `storageStatus` (none before the first check) and `dismissed`. */
  datatype Banner = Banner(status: Option<QuotaStatus>, dismissed: bool)

  /** What is rendered: nothing, or a warning whose dismiss controls may be absent. */
  datatype View = Hidden | Shown(critical: bool, dismissible: bool)

  /** The state on mount. */
  const Initial := Banner(None, false)

  /** `checkStorage()` with the quota reading `q`: a critical reading un-dismisses. */
  function CheckStorage(b: Banner, q: QuotaStatus): (r: Banner)
    ensures r.status == Some(q)
    ensures q.isCritical ==> !r.dismissed
    ensures !q.isCritical ==> r.dismissed == b.dismissed
  {
    Banner(Some(q), if q.isCritical then false else b.dismissed)
  }

  /** `handleDismiss()`. */
  function Dismiss(b: Banner): (r: Banner)
    ensures r.status == b.status && r.dismissed
  {
    Banner(b.status, true)
  }

  /** The render: hidden without a status or a warning, hidden when a non-critical warning was dismissed. */
  function Render(b: Banner): (v: View)
    ensures v.Hidden? <==>
      || b.status.None?
      || (!b.status.value.isWarning && !b.status.value.isCritical)
      || (b.dismissed && !b.status.value.isCritical)
    ensures v.Shown? ==> v.critical == b.status.value.isCritical
    ensures v.Shown? ==> (v.dismissible <==> !v.critical)
  {
    match b.status
    case None => Hidden
    case Some(q) =>
      if !q.isWarning && !q.isCritical then Hidden
      else if b.dismissed && !q.isCritical then Hidden
      else Shown(q.isCritical, !q.isCritical)
  }

  /**
   * What can happen to the banner: a periodic check with a reading, or a click on a
   * dismiss control, which only a dismissible warning renders.
   */
  datatype Event = Checked(q: QuotaStatus) | Clicked

  function Apply(b: Banner, e: Event): (r: Banner)
    ensures e.Clicked? && !(Render(b).Shown? && Render(b).dismissible) ==> r == b
  {
    match e
    case Checked(q) => CheckStorage(b, q)
    case Clicked => if Render(b).Shown? && Render(b).dismissible then Dismiss(b) else b
  }

  /** The state after a run of events from mount. */
  function Replay(events: seq<Event>): Banner
    decreases |events|
  {
    if events == [] then Initial
    else Apply(Replay(events[..|events| - 1]), events[|events| - 1])
  }

  /** After a check that read critical, the banner shows, however often it was dismissed before. */
  lemma CriticalAlwaysShown(events: seq<Event>, q: QuotaStatus)
    requires q.isCritical
    ensures Render(Replay(events + [Checked(q)])) == Shown(true, false)
  {
    assert (events + [Checked(q)])[..|events|] == events;
  }

  /** The flag is never set while the latest reading is critical. */
  lemma {:induction false} DismissedNotCritical(events: seq<Event>)
    ensures Replay(events).dismissed ==> Replay(events).status.Some? && !Replay(events).status.value.isCritical
    decreases |events|
  {
    if events != [] {
      DismissedNotCritical(events[..|events| - 1]);
    }
  }

  /** A dismissed warning stays dismissed, and hidden, through any run without a critical reading. */
  lemma {:induction false} DismissedStaysHidden(events: seq<Event>, later: seq<Event>)
    requires Replay(events).dismissed
    requires forall i :: 0 <= i < |later| ==> later[i].Clicked? || !later[i].q.isCritical
    ensures Replay(events + later).dismissed
    ensures Render(Replay(events + later)) == Hidden
    decreases |later|
  {
    if later == [] {
      assert events + later == events;
    } else {
      var init := later[..|later| - 1];
      assert (events + later)[..|events + later| - 1] == events + init;
      assert (events + later)[|events + later| - 1] == later[|later| - 1];
      DismissedStaysHidden(events, init);
    }
    DismissedNotCritical(events + later);
  }

  /** No banner ever offers a dismiss control while the reading is critical. */
  lemma NoDismissWhenCritical(b: Banner)
    requires b.status.Some? && b.status.value.isCritical
    ensures Render(b) == Shown(true, false)
  {
  }
}

=== FILE: text.dfy ===
/**
 * The string primitives the journal relies on: `toLowerCase` (ASCII letters only),
 * `includes`, and `trim` with ECMAScript's whitespace and line-terminator set.
 */
module Text {

  predicate IsUpper(c: char) {
    'A' <= c <= 'Z'
  }

  function LowerChar(c: char): (r: char)
    ensures !IsUpper(r)
    ensures !IsUpper(c) ==> r == c
    ensures IsUpper(c) ==> 'a' <= r <= 'z' && r as int - 'a' as int == c as int - 'A' as int
  {
    if IsUpper(c) then (c as int + 32) as char else c
  }

  /**
   * `s.toLowerCase()`, restricted to ASCII letters: each capital becomes the small letter
   * at the same place in the alphabet, and every other character is kept.
   */
  function ToLower(s: string): (r: string)
    ensures |r| == |s|
    ensures forall i :: 0 <= i < |s| ==> !IsUpper(r[i])
    ensures forall i :: 0 <= i < |s| && !IsUpper(s[i]) ==> r[i] == s[i]
    ensures forall i :: 0 <= i < |s| && IsUpper(s[i]) ==>
      'a' <= r[i] <= 'z' && r[i] as int - 'a' as int == s[i] as int - 'A' as int
  {
    seq(|s|, i requires 0 <= i < |s| => LowerChar(s[i]))
  }

  /** Lowering twice is lowering once. */
  lemma ToLowerIdempotent(s: string)
    ensures ToLower(ToLower(s)) == ToLower(s)
  {
  }

  /** `sub` occurs in `s` starting at position `i`. */
  predicate OccursAt(s: string, sub: string, i: int) {
    0 <= i && i + |sub| <= |s| && s[i..i + |sub|] == sub
  }

  /** `s.includes(sub)`: some position of `s` starts an occurrence of `sub`. */
  function Contains(s: string, sub: string): (r: bool)
    ensures r <==> exists i :: OccursAt(s, sub, i)
    decreases |s|
  {
    if |sub| > |s| then
      assert forall i :: !OccursAt(s, sub, i);
      false
    else if s[..|sub|] == sub then
      assert OccursAt(s, sub, 0);
      true
    else
      var rest := Contains(s[1..], sub);
      ShiftOccurrence(s, sub);
      rest
  }

  /** Occurrences in `s[1..]` are the occurrences in `s` past position 0. */
  lemma ShiftOccurrence(s: string, sub: string)
    requires |sub| <= |s|
    requires s[..|sub|] != sub
    ensures (exists i :: OccursAt(s, sub, i)) <==> (exists i :: OccursAt(s[1..], sub, i))
  {
    if exists i :: OccursAt(s, sub, i) {
      var i :| OccursAt(s, sub, i);
      assert i != 0;
      assert s[1..][i - 1..i - 1 + |sub|] == s[i..i + |sub|];
      assert OccursAt(s[1..], sub, i - 1);
    }
    if exists i :: OccursAt(s[1..], sub, i) {
      var i :| OccursAt(s[1..], sub, i);
      assert s[1..][i..i + |sub|] == s[i + 1..i + 1 + |sub|];
      assert OccursAt(s, sub, i + 1);
    }
  }

  /** Every string includes the empty string. */
  lemma ContainsEmpty(s: string)
    ensures Contains(s, "")
  {
    assert OccursAt(s, "", 0);
  }

  /** ECMAScript WhiteSpace and LineTerminator code points, the set `trim` strips. */
  const SpaceChars: set<char> := {
    '\t', '\n', '\U{000B}', '\U{000C}', '\r', ' ', '\U{00A0}', '\U{1680}',
    '\U{2028}', '\U{2029}', '\U{202F}', '\U{205F}', '\U{3000}', '\U{FEFF}'}

  predicate IsSpace(c: char) {
    c in SpaceChars || '\U{2000}' <= c <= '\U{200A}'
  }

  predicate IsBlank(s: string) {
    forall i :: 0 <= i < |s| ==> IsSpace(s[i])
  }

  function TrimStart(s: string): (r: string)
    ensures |r| <= |s| && r == s[|s| - |r|..]
    ensures r != [] ==> !IsSpace(r[0])
    ensures IsBlank(s[..|s| - |r|])
  {
    if s != [] && IsSpace(s[0]) then
      var r := TrimStart(s[1..]);
      TrimStartStep(s, r);
      r
    else s
  }

  /** Stripping one more leading blank keeps the stripped part blank. */
  lemma TrimStartStep(s: string, r: string)
    requires s != [] && IsSpace(s[0])
    requires |r| <= |s[1..]| && r == s[1..][|s[1..]| - |r|..] && IsBlank(s[1..][..|s[1..]| - |r|])
    ensures |r| <= |s| && r == s[|s| - |r|..] && IsBlank(s[..|s| - |r|])
  {
    var head := s[..|s| - |r|];
    assert head == [s[0]] + s[1..][..|s[1..]| - |r|];
    forall k | 0 <= k < |head|
      ensures IsSpace(head[k])
    {
      if k > 0 {
        assert head[k] == s[1..][..|s[1..]| - |r|][k - 1];
      }
    }
  }

  function TrimEnd(s: string): (r: string)
    ensures |r| <= |s| && r == s[..|r|]
    ensures r != [] ==> !IsSpace(r[|r| - 1])
    ensures IsBlank(s[|r|..])
  {
    if s != [] && IsSpace(s[|s| - 1]) then
      var r := TrimEnd(s[..|s| - 1]);
      TrimEndStep(s, r);
      r
    else s
  }

  /** Stripping one more trailing blank keeps the stripped part blank. */
  lemma TrimEndStep(s: string, r: string)
    requires s != [] && IsSpace(s[|s| - 1])
    requires |r| <= |s| - 1 && r == s[..|s| - 1][..|r|] && IsBlank(s[..|s| - 1][|r|..])
    ensures |r| <= |s| && r == s[..|r|] && IsBlank(s[|r|..])
  {
    var tail := s[|r|..];
    assert tail == s[..|s| - 1][|r|..] + [s[|s| - 1]];
    forall k | 0 <= k < |tail|
      ensures IsSpace(tail[k])
    {
      if k < |tail| - 1 {
        assert tail[k] == s[..|s| - 1][|r|..][k];
      }
    }
  }

  /** `s.trim()`: `s` without its leading and trailing whitespace. */
  function Trim(s: string): (r: string)
    ensures exists i :: OccursAt(s, r, i) && IsBlank(s[..i]) && IsBlank(s[i + |r|..])
    ensures r != [] ==> !IsSpace(r[0]) && !IsSpace(r[|r| - 1])
  {
    var t := TrimStart(s);
    var r := TrimEnd(t);
    TrimSplit(s, t, r);
    r
  }

  /** `r` sits in `s` at the end of `s`'s leading whitespace, with only whitespace after it. */
  lemma TrimSplit(s: string, t: string, r: string)
    requires |t| <= |s| && t == s[|s| - |t|..] && IsBlank(s[..|s| - |t|])
    requires |r| <= |t| && r == t[..|r|] && IsBlank(t[|r|..])
    ensures exists i :: OccursAt(s, r, i) && IsBlank(s[..i]) && IsBlank(s[i + |r|..])
  {
    var i := |s| - |t|;
    assert s[i..i + |r|] == r;
    assert s[i + |r|..] == t[|r|..];
    assert OccursAt(s, r, i) && IsBlank(s[..i]) && IsBlank(s[i + |r|..]);
  }

  /** Trimming a trimmed string changes nothing. */
  lemma TrimIdempotent(s: string)
    ensures Trim(Trim(s)) == Trim(s)
  {
  }

  /** The trimmed text is empty exactly when every character is whitespace. */
  lemma TrimEmptyIffBlank(s: string)
    ensures Trim(s) == [] <==> IsBlank(s)
  {
    var t := TrimStart(s);
    if !IsBlank(s) {
      var k :| 0 <= k < |s| && !IsSpace(s[k]);
      assert k >= |s| - |t|;
      assert t[k - (|s| - |t|)] == s[k];
    }
  }

  predicate IsDigit(c: char) {
    '0' <= c <= '9'
  }

  function DigitChar(d: nat): (c: char)
    requires d < 10
    ensures IsDigit(c)
  {
    ('0' as int + d) as char
  }

  /** `n.toString()` for a non-negative integer: its decimal digits, no leading zero. */
  function DecimalString(n: nat): (r: string)
    ensures |r| > 0
    ensures forall i :: 0 <= i < |r| ==> IsDigit(r[i])
    ensures |r| > 1 ==> r[0] != '0'
  {
    if n < 10 then [DigitChar(n)] else DecimalString(n / 10) + [DigitChar(n % 10)]
  }

  /** The number a string of decimal digits denotes. */
  function DecimalValue(s: string): nat
    requires forall i :: 0 <= i < |s| ==> IsDigit(s[i])
  {
    if s == [] then 0
    else
      assert IsDigit(s[|s| - 1]);
      10 * DecimalValue(s[..|s| - 1]) + (s[|s| - 1] as int - '0' as int)
  }

  /** Reading back the digits gives the number. */
  lemma {:induction false} DecimalRoundTrip(n: nat)
    ensures DecimalValue(DecimalString(n)) == n
  {
    if n >= 10 {
      DecimalRoundTrip(n / 10);
      var s := DecimalString(n);
      assert s[..|s| - 1] == DecimalString(n / 10);
    }
  }

  /** Distinct clock readings give distinct decimal strings. */
  lemma DecimalInjective(m: nat, n: nat)
    requires DecimalString(m) == DecimalString(n)
    ensures m == n
  {
    DecimalRoundTrip(m);
    DecimalRoundTrip(n);
  }
}

=== FILE: transfer.dfy ===
/**
 * Export and import of the journal. Export wraps the stored array in a snapshot;
 * import merges a snapshot's entries into the journal, skipping every entry whose id
 * the journal already holds, and re-sorts the merge newest first.
 */
module Transfer {
  import opened Prelude
  import opened Json
  import opened LocalStorage
  import opened EntryStore
  import Seqs

  const SchemaVersion: string := "2.1.2"

  /** The export document `{exportDate, version, entriesCount, entries}`. */
  datatype Snapshot = Snapshot(exportDate: string, version: string, entriesCount: nat, entries: seq<Entry>)

  /** `exportEntries()`, before `JSON.stringify`. */
  function ExportEntries(rt: Runtime, st: Storage, clock: Clock): (s: Snapshot)
    ensures s.entries == GetEntries(rt, st)
    ensures s.entriesCount == |s.entries|
    ensures s.version == "2.1.2"
    ensures s.exportDate == clock.iso
  {
    var es := GetEntries(rt, st);
    Snapshot(clock.iso, SchemaVersion, |es|, es)
  }

  /**
   * What `JSON.parse` of an import text and the reads of `data.entries` find:
   * text that does not parse, the literal `null` (reading `.entries` throws), or a
   * value whose `entries` is an array (`Some`) or is missing, falsy or no array (`None`).
   */
  datatype ImportDoc = NotJson | NullDocument | Document(entries: Option<seq<Entry>>)

  /** An exported snapshot, read back by the import. */
  function SnapshotDoc(s: Snapshot): ImportDoc {
    Document(Some(s.entries))
  }

  /** Why the import threw; every cause surfaces as "Import failed: <message>". */
  datatype ImportCause = SyntaxError | NullRead | InvalidFormat | WriteFailed(save: SaveError)
  datatype ImportError = ImportFailed(cause: ImportCause)

  datatype ImportCounts = ImportCounts(imported: nat, skipped: nat)

  /** `new Set(currentEntries.map(e => e.id))`. */
  function IdSet(es: seq<Entry>): (ids: set<Option<Value>>)
    ensures forall e :: e in es ==> IdOf(e) in ids
    ensures forall id :: id in ids ==> exists e :: e in es && IdOf(e) == id
  {
    set e | e in es :: IdOf(e)
  }

  /**
   * `existingIds.has(e.id)`: SameValueZero finds a primitive (or `undefined`) id by
   * value; an object or array id read from the import file is a fresh value that no
   * member of the set is.
   */
  predicate Known(ids: set<Option<Value>>, e: Entry) {
    ByValue(IdOf(e)) && IdOf(e) in ids
  }

  function IdNotIn(ids: set<Option<Value>>): Entry -> bool {
    (e: Entry) => !Known(ids, e)
  }

  /** `entries.filter(e => !existingIds.has(e.id))`. */
  function Unknown(es: seq<Entry>, ids: set<Option<Value>>): (r: seq<Entry>)
    ensures forall e :: e in r <==> e in es && !Known(ids, e)
    ensures forall e :: multiset(r)[e] == if !Known(ids, e) then multiset(es)[e] else 0
    ensures Seqs.IsSubsequence(r, es)
    ensures |r| <= |es|
    ensures |r| == 0 <==> forall e :: e in es ==> Known(ids, e)
  {
    Seqs.FilterSpec(es, IdNotIn(ids));
    var r := Seqs.Filter(es, IdNotIn(ids));
    assert |r| > 0 ==> r[0] in r;
    r
  }

  /** Non-increasing by `key`: the newest entry first. */
  predicate NewestFirst(es: seq<Entry>, key: Entry -> int) {
    forall i, j :: 0 <= i < j < |es| ==> key(es[i]) >= key(es[j])
  }

  /** Place `x` before the first entry that is not newer than it. */
  function Insert(x: Entry, es: seq<Entry>, key: Entry -> int): (r: seq<Entry>)
    ensures multiset(r) == multiset(es) + multiset{x}
    ensures forall e :: e in r ==> e == x || e in es
  {
    if es == [] || key(x) >= key(es[0]) then [x] + es
    else
      assert es == [es[0]] + es[1..];
      [es[0]] + Insert(x, es[1..], key)
  }

  /** Inserting into a newest-first sequence keeps it newest first. */
  lemma {:induction false} InsertSorted(x: Entry, es: seq<Entry>, key: Entry -> int)
    requires NewestFirst(es, key)
    ensures NewestFirst(Insert(x, es, key), key)
    decreases |es|
  {
    if es != [] && key(x) < key(es[0]) {
      var rest := Insert(x, es[1..], key);
      InsertSorted(x, es[1..], key);
      var r := [es[0]] + rest;
      assert r == Insert(x, es, key);
      forall j | 0 < j < |r|
        ensures key(r[0]) >= key(r[j])
      {
        assert r[j] in rest;
        if r[j] != x {
          var k :| 0 <= k < |es[1..]| && es[1..][k] == r[j];
          assert es[k + 1] == r[j];
        }
      }
    }
  }

  /**
   * `.sort((a, b) => new Date(b.timestamp) - new Date(a.timestamp))`: a stable
   * insertion sort, newest first.
   */
  function SortNewestFirst(es: seq<Entry>, key: Entry -> int): (r: seq<Entry>)
    ensures NewestFirst(r, key)
    ensures multiset(r) == multiset(es)
  {
    if es == [] then []
    else
      assert es == [es[0]] + es[1..];
      var rest := SortNewestFirst(es[1..], key);
      InsertSorted(es[0], rest, key);
      Insert(es[0], rest, key)
  }

  /**
   * `importEntries(jsonString)`: reject a document without an `entries` array; otherwise
   * keep the incoming entries whose id is new, and when there are any, save the
   * newest-first merge of the journal with them.
   */
  function ImportEntries(rt: Runtime, st: Storage, doc: ImportDoc): (r: Step<ImportCounts, ImportError>)
    requires Valid(st)
    ensures doc == NotJson ==> r == Step(st, Err(ImportFailed(SyntaxError)))
    ensures doc == NullDocument ==> r == Step(st, Err(ImportFailed(NullRead)))
    ensures doc == Document(None) ==> r == Step(st, Err(ImportFailed(InvalidFormat)))
    ensures r.result.Err? ==> r.storage == st
    ensures r.result.Ok? ==> Valid(r.storage)
    ensures r.result.Ok? ==> doc.Document? && doc.entries.Some?
    ensures doc.Document? && doc.entries.Some? && r.result.Err? ==> r.result.error.cause.WriteFailed?
    ensures doc.Document? && doc.entries.Some? ==>
      var current := GetEntries(rt, st);
      var added := Unknown(doc.entries.value, IdSet(current));
      && (added == [] ==> r.result.Ok?)
      && (added != [] ==>
            var saved := SaveEntries(rt, st, SortNewestFirst(current + added, rt.timeOf));
            && (r.result.Ok? <==> saved.result.Ok?)
            && (r.result.Ok? ==> r.storage == saved.storage)
            && (saved.result.Err? ==> r.result == Err(ImportFailed(WriteFailed(saved.result.error)))))
    ensures r.result.Ok? ==> r.result.value.imported + r.result.value.skipped == |doc.entries.value|
    ensures r.result.Ok? && r.result.value.imported == 0 ==> r.storage == st
    ensures r.result.Ok? ==>
      r.result.value.imported == |Unknown(doc.entries.value, IdSet(GetEntries(rt, st)))|
    ensures Faithful(rt) && r.result.Ok? ==>
      var current := GetEntries(rt, st);
      var added := Unknown(doc.entries.value, IdSet(current));
      var stored := GetEntries(rt, r.storage);
      && (added == [] ==> stored == current)
      && (added != [] ==> multiset(stored) == multiset(current) + multiset(added))
      && (added != [] ==> NewestFirst(stored, rt.timeOf))
  {
    match doc
    case NotJson => Step(st, Err(ImportFailed(SyntaxError)))
    case NullDocument => Step(st, Err(ImportFailed(NullRead)))
    case Document(None) => Step(st, Err(ImportFailed(InvalidFormat)))
    case Document(Some(incoming)) =>
      var current := GetEntries(rt, st);
      var added := Unknown(incoming, IdSet(current));
      if |added| == 0 then Step(st, Ok(ImportCounts(0, |incoming|)))
      else
        var merged := SortNewestFirst(current + added, rt.timeOf);
        var saved := SaveEntries(rt, st, merged);
        ReadAfterSave(rt, st, merged);
        match saved.result
        case Ok(_) => Step(saved.storage, Ok(ImportCounts(|added|, |incoming| - |added|)))
        case Err(e) => Step(st, Err(ImportFailed(WriteFailed(e))))
  }

  /**
   * An import never writes an entry whose id the journal already held: everything
   * stored afterwards was in the journal or is an incoming entry with a new id.
   */
  lemma ImportKeepsKnownIdsOut(rt: Runtime, st: Storage, incoming: seq<Entry>, e: Entry)
    requires Faithful(rt) && Valid(st)
    requires ImportEntries(rt, st, Document(Some(incoming))).result.Ok?
    requires e in GetEntries(rt, ImportEntries(rt, st, Document(Some(incoming))).storage)
    ensures e in GetEntries(rt, st) || (e in incoming && !Known(IdSet(GetEntries(rt, st)), e))
  {
    var current := GetEntries(rt, st);
    var added := Unknown(incoming, IdSet(current));
    var stored := GetEntries(rt, ImportEntries(rt, st, Document(Some(incoming))).storage);
    if added != [] {
      assert e in multiset(stored);
      assert e in multiset(current) || e in multiset(added);
      if e in added {
        Seqs.SubsequenceMembers(added, incoming, e);
      }
    }
  }

  /**
   * Importing the journal's own export changes nothing when its ids are primitives:
   * every entry is then a duplicate.
   */
  lemma ImportOwnExport(rt: Runtime, st: Storage, clock: Clock)
    requires Valid(st)
    requires forall e :: e in GetEntries(rt, st) ==> ByValue(IdOf(e))
    ensures var s := ExportEntries(rt, st, clock);
      ImportEntries(rt, st, SnapshotDoc(s)) == Step(st, Ok(ImportCounts(0, s.entriesCount)))
  {
    var current := GetEntries(rt, st);
    assert |Unknown(current, IdSet(current))| == 0;
  }

  /**
   * An entry whose id is an object or array is never recognised as known, so importing
   * the journal's own export imports it again.
   */
  lemma ObjectIdReimported(rt: Runtime, st: Storage, clock: Clock, e: Entry)
    requires Valid(st)
    requires e in GetEntries(rt, st) && !ByValue(IdOf(e))
    ensures var current := GetEntries(rt, st);
      e in Unknown(current, IdSet(current))
    ensures ImportEntries(rt, st, SnapshotDoc(ExportEntries(rt, st, clock))).result.Ok? ==>
      ImportEntries(rt, st, SnapshotDoc(ExportEntries(rt, st, clock))).result.value.imported > 0
  {
    var current := GetEntries(rt, st);
    assert e in Unknown(current, IdSet(current));
  }
}
